=== FILE: README.md ===
# rude_qa_bot core in Dafny

A model of the moderation core of the "rude QA" Telegram bot. It covers:

- reading restriction durations such as `""`, `"7"`, `"10m"` or `"3d"` into a number of seconds and a Russian text with the right plural form;
- the registry of pending joiners, who must answer an admission question before they may write;
- the record of restricted users;
- the non-repeating pools of notification texts;
- the reading of configuration from the environment;
- the chat handlers: admission, the answer callback, `pass`, and the guards of the restrict, ban and permit commands.

Telegram calls and the bot-service helpers whose code is not part of this model become effects. An oracle decides whether each Telegram call succeeds. The helpers are taken to return normally (see "## Left out").

Modules, one per source file:

- `Wrappers`, `Errors`, `Dto` and `Const` hold the data.
- `PyStr` and `PyInt` hold the Python string and integer semantics the code relies on: `str.split()`, `' '.join`, `strip`, slicing, `int()` and `str()`.
- `Utils` and `LegacyUtils` model `src/utils.py` and `utils.py`.
- `Greeting`, `Restriction`, `Notification` and `EnvLoader` model the files of the same names.
- `Handlers` models `src/rudeboy_bot.py`.

## Model

| member | source | states |
|---|---|---|
| Utils.PrepareQuery | src/utils.py:18-25 | the result splits into exactly the words of the text after the first; it has no whitespace at the ends, only single plain spaces inside; zero or one word gives `""` |
| Utils.PrepareQueryExample | src/utils.py:20-24 | the documented example `"/getUser rudeboy from rude qa"` gives `"rudeboy from rude qa"` |
| LegacyUtils.PrepareQuery | utils.py:5-12 | the older helper applied to a message gives the words of its text after the first, canonically joined, and equals the newer `prepare_query` of that text |
| PyStr.SplitJoin | src/utils.py:25 | splitting a space-join of words gives the words back, which is what makes `prepare_query` keep every argument |
| PyInt.SpaceClasses | src/utils.py:32 | the whitespace `int()` skips is exactly the whitespace `strip()` removes, minus the separators U+001C-U+001F |
| PyInt.SeparatorIsNoInt | src/utils.py:32 | a text holding a separator U+001C-U+001F anywhere is no integer (`int()` raises `ValueError`) |
| PyInt.ParseIntToString | src/utils.py:32-33 | `int(str(n)) == n` for every integer, so re-reading the rewritten `f'{amount}m'` recovers the amount |
| Utils.GetPlural | src/utils.py:58-66 | the result is always one of the three given forms |
| Utils.PluralRule | src/utils.py:58-66 | the branch order agrees with the numeral rule stated on the last two digits: last digit 1 but not 11 takes form 1; last digit 2-4 outside 12-14 takes form 2; otherwise form 3 |
| Utils.PluralPeriodic | src/utils.py:58-66 | the chosen form depends only on the amount modulo 100 |
| Utils.PluralExamples | src/utils.py:58-66 | 1 and 21 give form 1; 2-4 and 22-24 give form 2; 5-20 and 25 give form 3 |
| Utils.Resolve | src/utils.py:38-54 | the seconds are `amount * rate` clamped to [30, 864000]; below the minimum the result is the literal minimum object, above the maximum the literal maximum object; in range the text is `str(amount) + " " + plural` |
| Utils.ResolveMonotone | src/utils.py:41-47 | a larger amount never resolves to fewer seconds |
| Utils.GetDuration | src/utils.py:27-56 | every success lies within [30, 864000] seconds; the only error is the parse error, raised exactly when the text is non-empty, not an integer, and not an integer followed by a unit symbol |
| Utils.Readings | src/utils.py:27-54 | for every accepted text, the value: `""` gives the default; any text `int()` reads (`"05"`, `" 7"`, `"+7"`) gives that many minutes; otherwise a text whose rest before a final unit symbol `int()` reads gives that amount in that unit |
| Utils.ZeroFiveMinutes | src/utils.py:37-54 | `"05m"` gives five minutes, since `int()` reads `"05"` as 5 |
| Utils.AmountAndUnit | src/utils.py:37-54 | `str(a)` followed by a unit symbol resolves through that unit's table row |
| Utils.EmptyIsDefault | src/utils.py:28-29 | `""` reads the same as `"5m"`, which is 300 seconds, "5 минут" |
| Utils.BareIntegerIsMinutes | src/utils.py:31-33 | a bare integer text reads the same as that text followed by `m` |
| Utils.UnitWithoutAmount | src/utils.py:37-56 | a unit symbol with nothing before it is a parse error |
| Utils.UnknownUnit | src/utils.py:37-56 | text ending in a letter that is no unit symbol is a parse error |
| Utils.SeparatorRejected | src/utils.py:31-56 | a text holding a separator U+001C-U+001F anywhere is a parse error, since neither `int(text)` nor `int(text[:-1])` reads it and a separator is no unit symbol |
| Utils.SeparatorExamples | src/utils.py:31-56 | `"\x1c5"` and `"\x1c5m"` are parse errors |
| Utils.MissingAmountExample | src/utils.py:37-56 | `"m"` is a parse error |
| Utils.UnknownUnitExample | src/utils.py:37-56 | `"5x"` is a parse error |
| Utils.OutOfRangeIsLiteral | src/utils.py:43-47 | `"5000d"` gives the literal maximum and `"0s"` the literal minimum |
| Utils.BoundsAgreeWithTable | src/const.py:29-35 | 30 seconds and 10 days computed through the table equal the literal minimum and maximum objects, texts included |
| Utils.InverseStable | src/utils.py:41-54 | an in-range result has `amount * rate` seconds and the text splits into `str(amount)` and the plural word; reading that first word with the unit again gives the same result |
| Const.UnitTable | src/const.py:26-42 | the unit table has exactly the keys s, m, h, d with rates 1, 60, 3600, 86400, and the default unit is one of them |
| Const.DefaultWithinBounds | src/const.py:26-33 | the minimum does not exceed the maximum, and the default of 5 minutes (300 s) lies between them |
| Greeting.Add | src/greeting.py:18-25 | a pending user is refused with the already-pending error; otherwise the entry `(user, timeout, question, no greeting)` is filed under the user's id and every other entry is kept |
| Greeting.Remove | src/greeting.py:27-32 | only the user's id leaves the registry; removing an absent user changes nothing |
| Greeting.Get | src/greeting.py:47-52 | the stored entry, or the not-found error exactly when the id is absent |
| Greeting.Update | src/greeting.py:34-45 | an absent user gives the update error; otherwise only the entry's greeting is replaced, its user, timeout and question and all other entries are kept |
| Greeting.OperationsKeepWellKeyed | src/greeting.py:18-45 | add, update and remove keep every entry filed under its own user's id |
| Greeting.AddThenGetAndRemove | src/greeting.py:18-52 | after adding a new joiner, get returns the fresh entry, and removing the joiner restores the registry |
| Greeting.UpdateThenGet | src/greeting.py:34-52 | after an update, get shows the attached greeting and the unchanged user, timeout and question |
| Greeting.GetUserList | src/greeting.py:54-55 | the list holds exactly the registry's ids, each once |
| Greeting.GetExpired | src/greeting.py:57-61 | the result holds exactly the stored entries whose timeout is strictly before `now`, one per expired user, and the registry is a value left untouched |
| Greeting.ExpiredOfCount | src/greeting.py:58-61 | over a list of distinct ids there is one expired entry per expired id |
| Greeting.GetQuestion | src/greeting.py:64-79 | the answer timeout is 120 s and the buttons' callback data are exactly the reply map's keys, "да" and "нет" |
| Restriction.Add | src/restriction.py:17-19 | the record is filed under its user's id, overwriting any earlier one, and every other user's record is kept |
| Restriction.Get | src/restriction.py:21-26 | the stored record, or the not-found error exactly when the id was never added |
| Restriction.GetAfterAdd | src/restriction.py:17-23 | reading back a user just added gives that record, whatever was there before |
| Restriction.AddIsLocal | src/restriction.py:17-26 | adding one user's record does not change what another user reads back |
| Restriction.KeysOnlyGrow | src/restriction.py:10-26 | after any run of adds the ids are the old ones plus the added ones; nothing is removed |
| Restriction.LastWriteWins | src/restriction.py:17-23 | after a run of adds, a user reads back the last record added for them |
| Notification.InitList | src/notification.py:14-16 | the category's pool becomes the permuted source list and other categories are kept |
| Notification.GetNotification | src/notification.py:18-22 | a non-empty pool gives up its last template; only an empty pool is refilled with the permuted source before the pop; both an empty pool and an empty source give the pop error; other categories are untouched |
| Notification.TemplateFromSource | src/notification.py:14-22 | when the pool lies within the category's source list, a drawn template is an element of that list and the pool stays within it |
| Notification.DrainPool | src/notification.py:20-22 | while a pool lasts, successive draws hand it out from the back, one element per call, without refilling |
| Notification.DrainState | src/notification.py:20-22 | after `k` draws from a pool of at least `k` templates the pool has lost exactly its last `k` and every other category is as it was |
| Notification.DrainOrder | src/notification.py:20-22 | those `k` draws return the pool's last `k` templates, last first |
| Notification.RefillDraw | src/notification.py:18-22 | a draw from an empty pool refills it with the permuted source and returns the last of the permuted list, leaving the rest |
| Notification.FullCycle | src/notification.py:14-22 | from an empty pool, as many draws as the source is long return every source position exactly once, and leave the pool empty |
| Notification.CycleEndsEmpty | src/notification.py:14-22 | a full cycle from an empty pool leaves the pool empty again |
| Notification.CycleReversesShuffle | src/notification.py:14-22 | a full cycle hands out the source in the reverse of the first permutation |
| Notification.KeysDistinct | src/notification.py:24-65 | distinct categories use distinct pool names |
| Notification.Notify | src/notification.py:24-65 | drawing for one category leaves every other category's pool unchanged, draws only from that category's list and keeps its pool within it, and never fails for read-only and text-only, whose lists are non-empty |
| EnvLoader.MaskValue | src/env_loader.py:47-49 | not sensitive: unchanged; sensitive with at least 6 characters: same length, first and last three kept, the middle all `*`; sensitive and shorter: the first three then the last three characters, with no star added |
| EnvLoader.ShortSecretShown | src/env_loader.py:49 | a sensitive value shorter than 6 characters shows every one of its characters and gains no `*` |
| EnvLoader.GetEnv | src/env_loader.py:37-45 | the result is the window of the looked-up value (or of the default when unset) that starts after its leading whitespace and is followed only by whitespace; it neither starts nor ends with whitespace; a value already without it is returned as is |
| EnvLoader.PaddingRemoved | src/env_loader.py:37-45 | a value of whitespace, a core without whitespace at either end, and whitespace reads as exactly the core |
| PyStr.StripWindow | src/env_loader.py:38 | `strip()` keeps the part of the text after its leading whitespace and drops only trailing whitespace |
| EnvLoader.GetRequired | src/env_loader.py:20-35 | an empty value stops the process; otherwise the value is returned unchanged and non-empty, with a warning exactly when it equals the default |
| EnvLoader.MissingWithoutDefaultExits | src/env_loader.py:20-27 | an unset variable with a blank default stops the process |
| EnvLoader.UnsetUsesDefault | src/env_loader.py:20-35 | an unset variable with a tidy default yields the default with the warning |
| EnvLoader.PaddedDefaultNotWarned | src/env_loader.py:29-38 | a default with a leading space is stripped and then no longer equals the default, so no warning is given |
| Handlers.AdmitOne | src/rudeboy_bot.py:244-278 | one joiner keeps every other user's entry and the registry well keyed; a user already pending is handed to the timeout kick and the handler stops |
| Handlers.Greet | src/rudeboy_bot.py:263-278 | the handler stops with the API error exactly when posting the question fails, the registry unchanged; otherwise the entry, if it is still there, gains the posted message as its greeting and no other entry changes |
| Handlers.Admit | src/rudeboy_bot.py:241-278 | over all joiners of a join message, entries of users who did not join are kept unchanged, only joiners may be added, and the registry stays well keyed |
| Handlers.DuplicateJoinStops | src/rudeboy_bot.py:248-251 | a joiner already pending is passed to the timeout kick, nothing is added, and later joiners are skipped |
| Handlers.NewJoinerRestricted | src/rudeboy_bot.py:246-262 | a new joiner is restricted until `date + 240`; if that fails, the entry `(user, date + 120, question, no greeting)` stays and nothing else happens |
| Handlers.RestrictedFirst | src/rudeboy_bot.py:252-261 | for a new joiner the first transport call is the restriction until `date + 240`; if it fails the iteration stops with only that call and the fresh entry |
| Handlers.GreetingNotPosted | src/rudeboy_bot.py:264-270 | a failed question post escapes as an API error with the joiner pending without a greeting |
| Handlers.GreetingAttached | src/rudeboy_bot.py:249-276 | on success the entry's greeting is the posted message and the timeout kick is scheduled after 120 s with exactly that entry |
| Handlers.AttachFailsDeletesGreeting | src/rudeboy_bot.py:271-278 | if the entry vanished before the question was attached, the posted question is deleted and no kick is scheduled |
| Handlers.ReplyFor | src/rudeboy_bot.py:333-336 | the question's reply for a known answer, the fallback template for any other |
| Handlers.Answer | src/rudeboy_bot.py:319-354 | the registry only ever loses the answering user's entry, other entries are untouched, and it changes only for the pending user's own answer, ending normally |
| Handlers.AnswerIgnored | src/rudeboy_bot.py:321-354 | no message, a user not pending, or another message than their question: nothing happens |
| Handlers.AnswerAccepted | src/rudeboy_bot.py:332-352 | the keyboard is removed, the reply posted, the user forgotten before the restriction is lifted, and a failed lift does not bring the entry back |
| Handlers.AnswerReplyFails | src/rudeboy_bot.py:337-344 | a failed reply post escapes as an API error with the user still pending |
| Handlers.QuestionReplies | src/greeting.py:74-77 | for the bot's own question, "да" gets its own reply and data other than the two buttons gets the fallback |
| Handlers.Prelude | src/rudeboy_bot.py:98-101 | a forwarded command is silently ignored, and otherwise a non-admin caller is refused with the unauthorized error; only a direct admin command goes on |
| Handlers.PassAsWritten | src/rudeboy_bot.py:284-316 | the registry is untouched and nothing is done; once the guards pass with a reply target and a non-empty registry, the handler always raises because the registry is not iterable |
| Handlers.Scan | src/rudeboy_bot.py:300-301 | a hit is an entry whose greeting is the replied-to message; no match means every listed entry has a greeting other than it; a missing greeting is reported as the entry that raises |
| Handlers.PassCorrected | src/rudeboy_bot.py:284-316 | at most one entry leaves the registry and the rest are untouched, and only when the guards pass, a greeting matches and the restriction was lifted |
| Handlers.PassRemovesExactlyOne | src/rudeboy_bot.py:300-310 | on a match whose restriction is lifted, exactly the matched user leaves the registry |
| Handlers.PassNoMatchIgnored | src/rudeboy_bot.py:300-316 | when no question matches, the command is silently ignored |
| Handlers.PassAsWrittenNeverPasses | src/rudeboy_bot.py:300 | wherever the corrected handler lets a user pass, the handler as written raises and keeps the user pending |
| Handlers.RestrictCommand | src/rudeboy_bot.py:96-149 | the opening guards decide first; an escaping error comes with no effect; a restriction is applied only to the replied-to sender, never to an admin, and only for a duration within the bounds |
| Handlers.BanCommand | src/rudeboy_bot.py:193-238 | the opening guards decide first; an escaping error comes with no effect; a ban hits only the replied-to sender, never an admin, and only for a duration within the bounds; a valid command bans the replied-to non-admin for exactly the duration its text reads as, and a successful ban is followed by the notice and nothing else |
| Handlers.PermitCommand | src/rudeboy_bot.py:152-190 | the opening guards decide first; rights are restored only as the second step, after a successful member lookup that reported the member restricted; a permit replying to someone looks up exactly that sender, a restricted one gets their rights back, and a successful restore is followed by the notice |
| Handlers.RestrictAdminTargetSilent | src/rudeboy_bot.py:113-149 | restricting an admin does nothing |
| Handlers.BanAdminTargetDeletes | src/rudeboy_bot.py:203-236 | banning an admin deletes the command and nothing else |
| Handlers.RestrictMalformedDurationDeletes | src/rudeboy_bot.py:117-147 | an unreadable duration makes restrict delete the command and nothing else |
| Handlers.BanMalformedDurationDeletes | src/rudeboy_bot.py:211-236 | an unreadable duration makes ban delete the command and nothing else |
| Handlers.QueryOfCommand | src/utils.py:25 | the query of a command word, a space and one token is that token |
| Handlers.RestrictAppliesResolvedDuration | src/rudeboy_bot.py:117-132 | a command `word <int><unit>` applies the restriction with exactly the resolved duration for that amount and unit |
| Handlers.RestrictUsesTokenDuration | src/rudeboy_bot.py:117-132 | a command word followed by any one token that `get_duration` accepts applies exactly the duration that token reads as |
| Handlers.LeadingZeroRestrictsFiveMinutes | src/rudeboy_bot.py:117-132 | a command word followed by `05m` restricts for five minutes |
| Handlers.BareCommandUsesDefault | src/rudeboy_bot.py:117-132 | a command with no argument restricts for the default 300 s, "5 минут" |
| Handlers.BanExactlyWhenValid | src/rudeboy_bot.py:193-238 | a ban call happens if and only if the guards pass, the command replies to a non-admin, and the duration reads |
| Handlers.RestoreExactlyWhenRestricted | src/rudeboy_bot.py:152-190 | rights are given back if and only if the guards pass, the command replies to someone, and the lookup succeeds and finds that member restricted |
| Handlers.PermitNeedsRestrictedMember | src/rudeboy_bot.py:169-172 | a member who is not restricted is looked up and nothing else happens |

## Left out

- Telegram transport, polling, logging, the `.env` file loading and `exit`: the handlers take an oracle for call outcomes, and the environment lookup is a parameter.
- The bot-service helpers `set_read_only`, `set_text_only`, `set_read_write`, `ban_kick`, `timeout_kick`, `is_admin`, `remove_inline_keyboard`, `delete_chat_message` and `create_scheduled_threat`: they are called from the handlers but not defined in this version's `src/utils.py`. They become effects, and `is_admin` becomes a set of admin ids.
- `UnauthorizedCommandError`: its constructor receives the bot and the message but is not defined in `src/error.py`. It is modelled only as the error escaping the handler.
- `RestrictedUserDto`: it is not defined in `src/dto.py`. A restriction record is a user plus an opaque payload.
- `ChatCommand`, `MessageSettings` and `TelegramMemberStatus`: imported by the handlers but absent from `src/const.py`. The command word is any word, the restriction kind lookup is a parameter (`None` when the command is unknown), and the member status is an oracle.
- Four template lists: `READ_WRITE`, `TIMEOUT_KICK`, `BAN_KICK` and `UNAUTHORIZED_PUNISHMENT` are absent from `src/const.py` and are a parameter of `Notification.Notify`.
- `timeout_kick`, `delete_chat_message`, `remove_inline_keyboard` and `create_scheduled_threat` are taken never to raise: their code is not part of this model. They are `Invoke` effects with no success flag, so `Handlers.AnswerAccepted` and `Handlers.GreetingAttached` hold only under that reading.
- The dispatch filters of `src/rudeboy_bot.py:90-93, 152, 193, 281` and the decorators `methods.rude_qa_only` and `methods.supergroup_only` (lines 94-95, 153-154, 194-195, 242, 282-283): they decide whether a handler runs at all, and the decorators are not defined in this version's `src/utils.py`. The `Handlers` members model a handler body once it runs, so their contracts describe only messages that pass these gates.
- Template formatting (`str.format`, Markdown) and the telebot keyboard objects, including `BotUtils.mention` (`src/utils.py:68-70`), which only formats the `{mention}` text of the question posted at `src/rudeboy_bot.py:266`. Questions keep their text, button callback data, timeout and reply map.
- `random.shuffle`: it is an arbitrary permutation given as an oracle, one per draw.
- Threads and timers: the one interleaving modelled is the entry of a joiner disappearing while their question is being posted (`removedMeanwhile`). Otherwise `Update` cannot fail in a sequential run.
- `test_handler` and `me_handler` of `src/rudeboy_bot.py` and the superseded top-level `rudeboy_bot.py`: they are I/O only.
- `PyInt.ParseInt`: Python's `int()` also accepts underscores between digits and non-ASCII digits. The model accepts only the whitespace `int()` skips (that of `str.isspace()` without U+001C-U+001F), an optional sign and ASCII digits.
- Error names, version skew:
  - `src/rudeboy_bot.py:14` imports `UserAlreadyInStorageError`, `UserStorageUpdateError` and `UserNotFoundInStorageError`, and catches them at lines 250 and 277.
  - `src/restriction.py:7` imports `UserNotFoundInStorageError` as well, and `src/error.py` does not define it either. The model raises `UserNotFoundInStorage` for a lookup of a user who was never restricted.
  - `src/greeting.py` raises `NewbieAlreadyInStorageError`, `NewbieStorageUpdateError` and `NewbieNotFoundInStorageError`, and `src/error.py:13-22` defines only these.
  - The model reads each caught name as the matching `Newbie*` error: one "already pending" outcome, one "update failed" outcome.
- `duration_class`, version skew: `src/rudeboy_bot.py:119,213` pass a `duration_class` argument that `src/utils.py:27` does not accept. Both restrict and ban use the resolver exactly as `src/utils.py` defines it, and the ban length of `src/const.py:45-46` plays no part.
- `BotUtils` constructor, version skew: `src/rudeboy_bot.py:38-45` builds `BotUtils` with six arguments, while `src/utils.py:11` takes one.
- Handlers.Answer: when the pending user's entry has no greeting yet, the source raises `AttributeError` (`src/rudeboy_bot.py:329`). The model raises `NoneAttribute` there instead of ignoring the press.
- Handlers.PassCorrected: the correction only makes the loop run over the entries, so an entry without a greeting still raises `AttributeError` as line 301 would.
- Greeting.GetExpired: it returns the list at once instead of yielding lazily. Its order follows an arbitrary listing of the ids, not dictionary insertion order.
- DTO accessors (`src/dto.py`): they are datatype fields. `NewbieDto.greeting` defaulting to `None` is the `None` that `Greeting.Add` stores.

## Findings

| source | as written | input that shows it | evidently intended | confidence | as-written member | corrected member |
|---|---|---|---|---|---|---|
| src/rudeboy_bot.py:300 | `for newbie in newbie_storage` iterates over the `NewbieStorage` object, which defines no `__iter__`, so a `TypeError` escapes whenever the registry is non-empty | an admin replies `pass` to a pending joiner's question while that joiner is registered | iterate over the stored entries, and let the joiner whose question was replied to pass | not executed | Handlers.PassAsWritten | Handlers.PassCorrected |

=== FILE: const.dfy ===
/** The bot's configuration tables: restriction durations, the unit table and notification templates. */
module Const {
  import opened Dto

  /** One row of the unit table: seconds per unit and the unit word's plural forms. */
  datatype UnitSetting = UnitSetting(rate: int, forms: PluralForms)

  /** The default restriction is 5 of the default unit, minutes. */
  const DefaultDuration: int := 5
  const DefaultUnit: char := 'm'

  const MinDuration: DurationDto := DurationDto(30, "30 секунд")
  const MaxDuration: DurationDto := DurationDto(864000, "10 дней")

  const SecondsSettings: UnitSetting := UnitSetting(1, PluralForms("секунду", "секунды", "секунд"))
  const MinutesSettings: UnitSetting := UnitSetting(60, PluralForms("минуту", "минуты", "минут"))
  const HoursSettings: UnitSetting := UnitSetting(3600, PluralForms("час", "часа", "часов"))
  const DaysSettings: UnitSetting := UnitSetting(86400, PluralForms("день", "дня", "дней"))

  /** Unit symbol (the last character of a duration text) to its setting. */
  const Units: map<char, UnitSetting> :=
    map['s' := SecondsSettings, 'm' := MinutesSettings, 'h' := HoursSettings, 'd' := DaysSettings]

  const ReadOnlyTemplates: seq<string> := [
    "{first_name} помещен в read-only на {duration_text}.",
    "{first_name} завалил ебало на {duration_text}.",
    "{first_name} выпил высокий стакан ебалозавалина, которого хватит на {duration_text}.",
    "{first_name} не будет пиздеть ещё {duration_text}.",
    "{first_name} сможет дальше пиздеть только через {duration_text}."
  ]

  const TextOnlyTemplates: seq<string> := [
    "{first_name} помещен в text-only на {duration_text}.",
    "{first_name} не будет постить уебанские картиночки {duration_text}."
  ]

  /** The unit table has exactly the four symbols s, m, h, d, with rates 1, 60, 3600 and 86400. */
  lemma UnitTable()
    ensures Units.Keys == {'s', 'm', 'h', 'd'}
    ensures Units['s'].rate == 1 && Units['m'].rate == 60
    ensures Units['h'].rate == 3600 && Units['d'].rate == 86400
    ensures DefaultUnit in Units
    ensures forall u :: u in Units ==> Units[u].rate > 0
  {
  }

  /** The bounds are ordered, and the default of 5 minutes (300 s) lies between them. */
  lemma DefaultWithinBounds()
    ensures MinDuration.seconds <= MaxDuration.seconds
    ensures MinDuration.seconds <= DefaultDuration * Units[DefaultUnit].rate <= MaxDuration.seconds
    ensures DefaultDuration * Units[DefaultUnit].rate == 300
  {
  }
}

=== FILE: dto.dfy ===
/** The immutable records the bot passes around: durations, plural forms, questions and newbies. */
module Dto {
  import opened Wrappers

  type UserId = int
  type MessageId = int

  /** A chat member; only the id and the first name matter to the core. */
  datatype User = User(id: UserId, firstName: string)

  /** A chat message: its id, its author and its text. */
  datatype Message = Message(messageId: MessageId, sender: User, text: string)

  /** A resolved duration: a number of seconds and the text shown to the chat. */
  datatype DurationDto = DurationDto(seconds: int, text: string)

  /** The three grammatical forms of a unit word, in constructor order. */
  datatype PluralForms = PluralForms(form1: string, form2: string, form3: string)

  /** One inline button of a greeting question; the keyboard object itself is not modelled. */
  datatype Button = Button(caption: string, callbackData: string)

  /** The admission question: its text, its buttons, its answer timeout and its answer-to-reply map. */
  datatype GreetingQuestion = GreetingQuestion(
    text: string,
    buttons: seq<Button>,
    timeout: int,
    reply: map<string, string>)

  /** A pending joiner. `greeting` is `None` until the posted question is attached. */
  datatype Newbie = Newbie(
    user: User,
    timeout: int,
    question: GreetingQuestion,
    greeting: Option<Message>)
}

=== FILE: env_loader.dfy ===
/**
 Reading configuration from the environment. The lookup itself is a parameter: `None`
 when the variable is unset. Values are stripped of surrounding whitespace, a required
 value that ends up empty stops the process, and sensitive values are masked before
 they are logged.
 */
module EnvLoader {
  import opened Wrappers
  import opened PyStr

  /** `_mask_value(value, sensitive)`: keep three characters at each end and star out the middle. */
  function MaskValue(value: string, sensitive: bool): (r: string)
    ensures !sensitive ==> r == value
    ensures sensitive && |value| >= 6 ==>
      && |r| == |value|
      && r[..3] == value[..3]
      && r[|r| - 3..] == value[|value| - 3..]
      && (forall i :: 3 <= i < |value| - 3 ==> r[i] == '*')
    ensures sensitive && |value| < 6 ==>
      var k := if |value| < 3 then |value| else 3;
      r == value[..k] + value[|value| - k..]
  {
    if !sensitive then value
    else Head(value, 3) + Repeat('*', |value| - 6) + Tail(value, 3)
  }

  /**
   A sensitive value shorter than six characters is not masked at all: no star is
   added and every one of its characters is shown.
   */
  lemma ShortSecretShown(value: string)
    requires |value| < 6
    ensures var r := MaskValue(value, true);
      && (forall c :: c in value <==> c in r)
      && ('*' in r ==> '*' in value)
  {
    var r := MaskValue(value, true);
    var k := if |value| < 3 then |value| else 3;
    assert r == value[..k] + value[|value| - k..];
    forall c | c in value
      ensures c in r
    {
      var i :| 0 <= i < |value| && value[i] == c;
      if i < k {
        assert r[i] == c;
      } else {
        assert r[k + (i - (|value| - k))] == c;
      }
    }
  }

  /** What `os.getenv(name, default)` returns: the variable's value, or the default when it is unset. */
  function ValueOr(lookup: Option<string>, default: string): string
  {
    match lookup
    case Some(v) => v
    case None => default
  }

  /**
   `_get_env(name, default)`: the variable's value, or the default when unset, with the
   surrounding whitespace removed. The result is the part of that value after its
   leading whitespace and before a run of trailing whitespace, and it neither starts
   nor ends with whitespace.
   */
  function GetEnv(lookup: Option<string>, default: string): (r: string)
    ensures WindowOf(ValueOr(lookup, default), r)
    ensures r == [] || (!IsSpace(r[0]) && !IsSpace(r[|r| - 1]))
    ensures var v := ValueOr(lookup, default);
      v != [] && !IsSpace(v[0]) && !IsSpace(v[|v| - 1]) ==> r == v
  {
    var v := ValueOr(lookup, default);
    StripSpec(v);
    Strip(v)
  }

  /** The facts about `strip` that `GetEnv` promises, for one value. */
  lemma StripSpec(v: string)
    ensures var r := Strip(v);
      && WindowOf(v, r)
      && (r == [] || (!IsSpace(r[0]) && !IsSpace(r[|r| - 1])))
      && (v != [] && !IsSpace(v[0]) && !IsSpace(v[|v| - 1]) ==> r == v)
  {
    StripProperties(v);
    StripWindow(v);
  }

  /**
   A value made of whitespace, a core that neither starts nor ends with whitespace, and
   more whitespace reads as the core. This follows from the contract of `GetEnv` alone.
   */
  lemma PaddingRemoved(pre: string, core: string, post: string, default: string)
    requires forall k :: 0 <= k < |pre| ==> IsSpace(pre[k])
    requires forall k :: 0 <= k < |post| ==> IsSpace(post[k])
    requires core != [] && !IsSpace(core[0]) && !IsSpace(core[|core| - 1])
    ensures GetEnv(Some(pre + core + post), default) == core
  {
    var v := pre + core + post;
    var r := GetEnv(Some(v), default);
    assert ValueOr(Some(v), default) == v;
    var a := |pre|;
    var b := |pre| + |core| - 1;
    assert v[a] == core[0] && v[b] == core[|core| - 1];
    forall k | 0 <= k < a ensures IsSpace(v[k]) {
      assert v[k] == pre[k];
    }
    LeadingEndsAt(v, a);
    forall k | b < k < |v| ensures IsSpace(v[k]) {
      assert v[k] == post[k - (b + 1)];
    }
    WindowEndsAt(v, r, a, b);
    assert v[a..b + 1] == core;
  }

  /** What `get_required` does: stop the process, or return a value, warning when it is the default. */
  datatype Required = Exit | Value(value: string, warnedDefault: bool)

  /** `get_required(name, default)`. */
  function GetRequired(lookup: Option<string>, default: string): (r: Required)
    ensures r.Exit? <==> GetEnv(lookup, default) == ""
    ensures r.Value? ==> r.value != "" && r.value == GetEnv(lookup, default)
    ensures r.Value? ==> (r.warnedDefault <==> r.value == default)
  {
    var value := GetEnv(lookup, default);
    if value == "" then Exit
    else Value(value, value == default)
  }

  /** A required variable that is unset and has no default stops the process. */
  lemma MissingWithoutDefaultExits(default: string)
    requires forall i :: 0 <= i < |default| ==> IsSpace(default[i])
    ensures GetRequired(None, default) == Exit
  {
  }

  /** An unset variable with a tidy default yields that default, with a warning. */
  lemma UnsetUsesDefault(default: string)
    requires default != [] && !IsSpace(default[0]) && !IsSpace(default[|default| - 1])
    ensures GetRequired(None, default) == Value(default, true)
  {
  }

  /** A default with surrounding whitespace is stripped and then no longer equals itself, so no warning is given. */
  lemma PaddedDefaultNotWarned(word: string)
    requires IsWord(word)
    ensures GetRequired(None, " " + word) == Value(word, false)
  {
    var padded := " " + word;
    assert padded[0] == ' ' && padded[1..] == word;
    assert TrimLeft(padded) == TrimLeft(word);
    assert TrimLeft(word) == word;
    assert TrimRight(word) == word;
    assert GetEnv(None, padded) == word;
    assert |word| != |padded|;
  }
}

=== FILE: errors.dfy ===
/**
 The exceptions the core raises, as one closed set of variants.
 The exception classes themselves carry no data and no behaviour.
 `InvalidCommandError` and `InvalidConditionError` are raised and caught
 inside the restrict handler alone, so they have no variant here: the
 handler's outcomes are modelled directly.
 */
module Errors {

  datatype BotError =
      /** A duration text that is not `<int><unit>` (raised as `ParseBanDurationError`). */
    | ParseBanDuration
      /** The one "already pending" outcome of adding a newbie twice. */
    | NewbieAlreadyInStorage
    | NewbieNotFoundInStorage
    | NewbieStorageUpdate
      /** Restriction storage lookup of an id that was never added. */
    | UserNotFoundInStorage
      /** `list.pop()` on an empty template pool (Python's `IndexError`). */
    | PopFromEmptyList
}

=== FILE: greeting.dfy ===
/**
 The registry of pending joiners and the admission question they are asked.

 The registry maps a user id to that user's pending entry. Adding rejects a user
 who is already pending; updating attaches the posted question message; removing
 an absent user does nothing. Lookups of an absent user fail.
 */
module Greeting {
  import opened Wrappers
  import opened Errors
  import opened Dto

  type Storage = map<UserId, Newbie>

  /** Every entry is filed under its own user's id. */
  predicate WellKeyed(s: Storage) {
    forall id :: id in s ==> s[id].user.id == id
  }

  /** `add(user, timeout, question)`: register a new joiner with no greeting yet. */
  function Add(s: Storage, user: User, timeout: int, question: GreetingQuestion): (r: Result<Storage, BotError>)
    ensures r.Err? <==> user.id in s
    ensures r.Err? ==> r.error == NewbieAlreadyInStorage
    ensures r.Ok? ==> r.value.Keys == s.Keys + {user.id}
    ensures r.Ok? ==> r.value[user.id] == Newbie(user, timeout, question, None)
    ensures r.Ok? ==> forall id :: id in s ==> r.value[id] == s[id]
  {
    if user.id in s then Err(NewbieAlreadyInStorage)
    else Ok(s[user.id := Newbie(user, timeout, question, None)])
  }

  /** `remove(user)`: forget the user's entry; an absent user is a silent no-op. */
  function Remove(s: Storage, user: User): (r: Storage)
    ensures r.Keys == s.Keys - {user.id}
    ensures forall id :: id in r ==> r[id] == s[id]
    ensures user.id !in s ==> r == s
  {
    s - {user.id}
  }

  /** `get(user)`: the stored entry, or not-found. */
  function Get(s: Storage, user: User): (r: Result<Newbie, BotError>)
    ensures r.Ok? <==> user.id in s
    ensures r.Ok? ==> r.value == s[user.id]
    ensures r.Err? ==> r.error == NewbieNotFoundInStorage
  {
    if user.id in s then Ok(s[user.id]) else Err(NewbieNotFoundInStorage)
  }

  /**
   `update(user, greeting)`: attach the posted question message to the user's entry,
   keeping its user, timeout and question; an absent user is an update error.
   */
  function Update(s: Storage, user: User, greeting: Message): (r: Result<Storage, BotError>)
    ensures r.Err? <==> user.id !in s
    ensures r.Err? ==> r.error == NewbieStorageUpdate
    ensures r.Ok? ==> r.value.Keys == s.Keys
    ensures r.Ok? ==> r.value[user.id] == s[user.id].(greeting := Some(greeting))
    ensures r.Ok? ==> forall id :: id in s && id != user.id ==> r.value[id] == s[id]
  {
    match Get(s, user)
    case Err(_) => Err(NewbieStorageUpdate)
    case Ok(current) =>
      Ok(s[user.id := Newbie(current.user, current.timeout, current.question, Some(greeting))])
  }

  /** Adding, updating and removing keep every entry under its own user's id. */
  lemma OperationsKeepWellKeyed(s: Storage, user: User, timeout: int, question: GreetingQuestion, greeting: Message)
    requires WellKeyed(s)
    ensures Add(s, user, timeout, question).Ok? ==> WellKeyed(Add(s, user, timeout, question).value)
    ensures Update(s, user, greeting).Ok? ==> WellKeyed(Update(s, user, greeting).value)
    ensures WellKeyed(Remove(s, user))
  {
  }

  /** A freshly added joiner is found with no greeting, and removing them again restores the storage. */
  lemma AddThenGetAndRemove(s: Storage, user: User, timeout: int, question: GreetingQuestion)
    requires user.id !in s
    ensures var added := Add(s, user, timeout, question).value;
      && Get(added, user) == Ok(Newbie(user, timeout, question, None))
      && Remove(added, user) == s
  {
    var added := Add(s, user, timeout, question).value;
    assert Remove(added, user) == s by {
      assert Remove(added, user).Keys == s.Keys;
    }
  }

  /** After an update, the entry's greeting is the one attached and nothing else about it changed. */
  lemma UpdateThenGet(s: Storage, user: User, greeting: Message)
    requires user.id in s
    ensures var n := Get(Update(s, user, greeting).value, user).value;
      && n.greeting == Some(greeting)
      && n.user == s[user.id].user
      && n.timeout == s[user.id].timeout
      && n.question == s[user.id].question
  {
  }

  /** Some element of a non-empty set; dictionary iteration order is not modelled. */
  method Choose<T>(s: set<T>) returns (x: T)
    requires s != {}
    ensures x in s
  {
    x :| x in s;
  }

  /** `get_user_list()`: the ids of all pending users, each once. */
  method GetUserList(s: Storage) returns (ids: seq<UserId>)
    ensures forall id :: id in ids <==> id in s
    ensures |ids| == |s|
    ensures forall i, j :: 0 <= i < j < |ids| ==> ids[i] != ids[j]
  {
    ids := [];
    var rest := s.Keys;
    while rest != {}
      invariant rest <= s.Keys
      invariant forall id :: id in ids <==> id in s && id !in rest
      invariant |ids| + |rest| == |s.Keys|
      invariant forall i, j :: 0 <= i < j < |ids| ==> ids[i] != ids[j]
      decreases rest
    {
      var u := Choose(rest);
      ids := ids + [u];
      rest := rest - {u};
    }
    assert |s.Keys| == |s|;
  }

  /** The entries of the listed users that time out strictly before `now`, in list order. */
  function ExpiredOf(s: Storage, ids: seq<UserId>, now: int): (r: seq<Newbie>)
    requires forall i :: 0 <= i < |ids| ==> ids[i] in s
    ensures |r| <= |ids|
    ensures forall k :: 0 <= k < |r| ==> r[k] in s.Values && r[k].timeout < now
  {
    if ids == [] then []
    else
      var earlier := ExpiredOf(s, ids[..|ids| - 1], now);
      var last := s[ids[|ids| - 1]];
      if last.timeout < now then earlier + [last] else earlier
  }

  /** The listed users whose entries time out strictly before `now`. */
  function ExpiredIds(s: Storage, ids: seq<UserId>, now: int): set<UserId>
  {
    set id | id in ids && id in s && s[id].timeout < now
  }

  /** Every listed user whose timeout has passed contributes their entry. */
  lemma {:induction false} ExpiredOfComplete(s: Storage, ids: seq<UserId>, now: int)
    requires forall i :: 0 <= i < |ids| ==> ids[i] in s
    ensures forall id :: id in ids && s[id].timeout < now ==> s[id] in ExpiredOf(s, ids, now)
    decreases |ids|
  {
    if ids != [] {
      var front := ids[..|ids| - 1];
      ExpiredOfComplete(s, front, now);
      forall id | id in ids && s[id].timeout < now
        ensures s[id] in ExpiredOf(s, ids, now)
      {
        if id != ids[|ids| - 1] {
          var i :| 0 <= i < |ids| && ids[i] == id;
          assert front[i] == id;
        }
      }
    }
  }

  /** Over a list without repeats, there is one expired entry per expired user. */
  lemma {:induction false} ExpiredOfCount(s: Storage, ids: seq<UserId>, now: int)
    requires forall i :: 0 <= i < |ids| ==> ids[i] in s
    requires forall i, j :: 0 <= i < j < |ids| ==> ids[i] != ids[j]
    ensures |ExpiredOf(s, ids, now)| == |ExpiredIds(s, ids, now)|
    decreases |ids|
  {
    if ids != [] {
      var front := ids[..|ids| - 1];
      var u := ids[|ids| - 1];
      ExpiredOfCount(s, front, now);
      assert ids == front + [u];
      assert u !in front by {
        forall i | 0 <= i < |front|
          ensures front[i] != u
        {
          assert front[i] == ids[i];
        }
      }
      ExpiredIdsAppend(s, front, u, now);
    }
  }

  /** Appending a user to the list adds them to the expired users exactly when their timeout has passed. */
  lemma ExpiredIdsAppend(s: Storage, front: seq<UserId>, u: UserId, now: int)
    requires u in s
    ensures s[u].timeout < now ==> ExpiredIds(s, front + [u], now) == ExpiredIds(s, front, now) + {u}
    ensures s[u].timeout >= now ==> ExpiredIds(s, front + [u], now) == ExpiredIds(s, front, now)
  {
  }

  /**
   `get_expired(now)`: the entries whose timeout lies strictly before `now`, one per
   expired user. The storage is a value here, so it is left as it was.
   */
  method GetExpired(s: Storage, now: int) returns (expired: seq<Newbie>)
    ensures |expired| == |set id | id in s && s[id].timeout < now|
    ensures forall k :: 0 <= k < |expired| ==> expired[k] in s.Values && expired[k].timeout < now
    ensures forall id :: id in s && s[id].timeout < now ==> s[id] in expired
  {
    var ids := GetUserList(s);
    assert forall i :: 0 <= i < |ids| ==> ids[i] in ids;
    expired := [];
    for i := 0 to |ids|
      invariant expired == ExpiredOf(s, ids[..i], now)
    {
      assert ids[..i + 1][..i] == ids[..i];
      if s[ids[i]].timeout < now {
        expired := expired + [s[ids[i]]];
      }
    }
    assert ids[..|ids|] == ids;
    ExpiredOfComplete(s, ids, now);
    ExpiredOfCount(s, ids, now);
    assert ExpiredIds(s, ids, now) == set id | id in s && s[id].timeout < now by {
      forall id ensures id in ExpiredIds(s, ids, now) <==> id in s && s[id].timeout < now {
        assert id in ids <==> id in s;
      }
    }
  }

  /** The set of callback strings the question's buttons send. */
  function CallbackData(q: GreetingQuestion): set<string>
  {
    set i | 0 <= i < |q.buttons| :: q.buttons[i].callbackData
  }

  /**
   `get_question()`: the admission question, answered within 120 seconds, whose two
   buttons send exactly the answers the reply map knows.
   */
  function GetQuestion(): (q: GreetingQuestion)
    ensures q.timeout == 120
    ensures CallbackData(q) == q.reply.Keys == {"да", "нет"}
  {
    var q := GreetingQuestion(
      "{mention}, UI это API?",
      [Button("Да, определённо!", "да"), Button("Нет, обоссыте меня", "нет")],
      120,
      map["да" := "*{first_name} считает, что да.*",
          "нет" := "*{first_name} считает, что нет. ¯\\_(ツ)_/¯*"]);
    assert q.buttons[0].callbackData == "да" && q.buttons[1].callbackData == "нет";
    q
  }
}

=== FILE: handlers.dfy ===
/**
 The chat handlers of the bot, as transitions on the registry of pending joiners that
 emit the effects they cause.

 Telegram itself is an oracle (`Net`): for the k-th transport call of one handler run,
 `ok(k)` says whether it succeeded, `posted(k)` is the message a successful send
 returned, `memberRestricted(k)` is what a member lookup reported, and
 `removedMeanwhile(k)` says whether another handler or a scheduled task removed the
 joiner's entry while that call was in flight. Helpers of the bot service object whose
 code is not part of this model (kicks, deletions, keyboard removal, scheduling) are
 recorded as `Invoke` effects and taken to return normally. Which users are
 administrators is a parameter.
 */
module Handlers {
  import opened Wrappers
  import opened Dto
  import opened PyStr
  import opened PyInt
  import Errors
  import Greeting
  import Utils
  import Const

  /** A transport call, or a bot-service helper that may fail with an API error the handler catches. */
  datatype Action =
      /** `restrict_chat_member` with no permissions until the given date. */
    | RestrictAll(userId: UserId, untilDate: int)
      /** Posting the admission question in reply to the join message. */
    | SendGreeting(userId: UserId, replyTo: MessageId)
      /** Posting the reply template to an answer. */
    | SendReply(template: string, replyTo: MessageId)
      /** `restrict_chat_member(can_send_messages=True)`. */
    | AllowMessages(userId: UserId)
      /** Posting the notification about a moderation command. */
    | SendNotice(replyTo: MessageId)
      /** `get_chat_member`. */
    | GetMember(userId: UserId)
      /** `set_read_only` / `set_text_only`. */
    | ApplyRestriction(kind: RestrictKind, userId: UserId, duration: DurationDto)
      /** `ban_kick`. */
    | ApplyBan(userId: UserId, duration: DurationDto)
      /** `set_read_write`. */
    | ApplyReadWrite(userId: UserId)

  /** A bot-service helper taken to return normally. */
  datatype Helper =
    | TimeoutKick(newbie: Newbie)
    | DeleteMessage(messageId: MessageId)
      /** `create_scheduled_threat(delay, timeout_kick, (entry,))`. */
    | ScheduleTimeoutKick(delay: int, newbie: Newbie)
    | RemoveKeyboard(messageId: MessageId)

  datatype Effect =
    | Call(action: Action, ok: bool)
    | Invoke(helper: Helper)
      /** The point where the handler removes the user's entry from the registry. */
    | Forget(userId: UserId)

  /** The exceptions that escape a handler. */
  datatype Uncaught =
    | UnauthorizedCommand
    | ApiError
      /** `AttributeError` on a missing reply target or a missing greeting. */
    | NoneAttribute
      /** `TypeError`: the registry object is not iterable. */
    | NotIterable

  datatype Ending = Returned | Raised(error: Uncaught)

  /** A handler run on the registry: the registry afterwards, the effects in order, and how it ended. */
  datatype Outcome = Outcome(storage: Greeting.Storage, effects: seq<Effect>, ending: Ending)

  /** A command handler run that leaves the registry alone. */
  datatype Reaction = Reaction(effects: seq<Effect>, ending: Ending)

  datatype RestrictKind = ReadOnlyKind | TextOnlyKind

  datatype Net = Net(
    ok: nat -> bool,
    posted: nat -> Message,
    removedMeanwhile: nat -> bool,
    memberRestricted: nat -> bool)

  /** A chat command: the message, whether it was forwarded, and the message it replies to. */
  datatype CommandMessage = CommandMessage(message: Message, forwarded: bool, replyTo: Option<Message>)

  /** A button press: who pressed, the message carrying the button (if still known), and the button's data. */
  datatype Callback = Callback(from: User, message: Option<Message>, data: string)

  // ---------------------------------------------------------------------------
  // Joining: `greeting_handler`
  // ---------------------------------------------------------------------------

  /** The result of admitting one joiner: stop the handler, or go on to the next joiner. */
  datatype JoinStep =
    | Stop(outcome: Outcome)
    | Continue(storage: Greeting.Storage, effects: seq<Effect>)

  function StepStorage(step: JoinStep): Greeting.Storage
  {
    match step
    case Stop(o) => o.storage
    case Continue(st, _) => st
  }

  /**
   One iteration of the joiner loop, using transport calls `c` and `c + 1`: register
   the joiner, restrict them until twice the answer timeout, post the question, attach
   it to the entry and schedule the timeout kick.
   */
  function AdmitOne(s: Greeting.Storage, u: User, date: int, replyTo: MessageId, net: Net, c: nat): (step: JoinStep)
    ensures Greeting.WellKeyed(s) ==> Greeting.WellKeyed(StepStorage(step))
    ensures StepStorage(step).Keys <= s.Keys + {u.id}
    ensures forall id :: id in s && id != u.id ==> id in StepStorage(step) && StepStorage(step)[id] == s[id]
    ensures u.id in s ==> step == Stop(Outcome(s, [Invoke(TimeoutKick(s[u.id]))], Returned))
  {
    var q := Greeting.GetQuestion();
    match Greeting.Add(s, u, date + q.timeout, q)
    case Err(_) => Stop(Outcome(s, [Invoke(TimeoutKick(s[u.id]))], Returned))
    case Ok(added) =>
      var restrict := Call(RestrictAll(u.id, date + q.timeout * 2), net.ok(c));
      if !net.ok(c) then Stop(Outcome(added, [restrict], Returned))
      else Greet(added, u, replyTo, net, c, restrict, q.timeout)
  }

  /**
   The rest of an iteration once the joiner is registered and restricted (`restrict`
   is that call): post the question with transport call `c + 1`, attach it to the
   entry if the entry is still there, and schedule the timeout kick after the
   question's `timeout`.
   */
  function Greet(added: Greeting.Storage, u: User, replyTo: MessageId, net: Net, c: nat, restrict: Effect, timeout: int): (step: JoinStep)
    ensures Greeting.WellKeyed(added) ==> Greeting.WellKeyed(StepStorage(step))
    ensures StepStorage(step).Keys <= added.Keys
    ensures forall id :: id in added && id != u.id ==> id in StepStorage(step) && StepStorage(step)[id] == added[id]
    ensures step.Stop? <==> !net.ok(c + 1)
    ensures step.Stop? ==> step.outcome == Outcome(added, [restrict, Call(SendGreeting(u.id, replyTo), false)], Raised(ApiError))
    ensures step.Continue? ==> (u.id in step.storage <==> u.id in added && !net.removedMeanwhile(c + 1))
    ensures step.Continue? && u.id in step.storage ==>
      step.storage[u.id] == added[u.id].(greeting := Some(net.posted(c + 1)))
  {
    var send := Call(SendGreeting(u.id, replyTo), net.ok(c + 1));
    if !net.ok(c + 1) then Stop(Outcome(added, [restrict, send], Raised(ApiError)))
    else
      var greeting := net.posted(c + 1);
      var current := if net.removedMeanwhile(c + 1) then Greeting.Remove(added, u) else added;
      match Greeting.Update(current, u, greeting)
      case Err(_) => Continue(current, [restrict, send, Invoke(DeleteMessage(greeting.messageId))])
      case Ok(updated) =>
        Continue(updated, [restrict, send, Invoke(ScheduleTimeoutKick(timeout, updated[u.id]))])
  }

  /** The ids of a list of joiners. */
  function JoinerIds(joiners: seq<User>): set<UserId>
    decreases |joiners|
  {
    if joiners == [] then {} else {joiners[0].id} + JoinerIds(joiners[1..])
  }

  /** `greeting_handler`: admit the joiners of one join message in order. */
  function Admit(s: Greeting.Storage, joiners: seq<User>, date: int, replyTo: MessageId, net: Net, c: nat): (r: Outcome)
    ensures Greeting.WellKeyed(s) ==> Greeting.WellKeyed(r.storage)
    ensures r.storage.Keys <= s.Keys + JoinerIds(joiners)
    ensures forall id :: id in s && id !in JoinerIds(joiners) ==> id in r.storage && r.storage[id] == s[id]
    decreases |joiners|
  {
    if joiners == [] then Outcome(s, [], Returned)
    else
      match AdmitOne(s, joiners[0], date, replyTo, net, c)
      case Stop(o) => o
      case Continue(next, effects) =>
        var rest := Admit(next, joiners[1..], date, replyTo, net, c + 2);
        Outcome(rest.storage, effects + rest.effects, rest.ending)
  }

  /** A joiner who is already pending is handed to the timeout kick and the rest of the message is skipped. */
  lemma DuplicateJoinStops(s: Greeting.Storage, joiners: seq<User>, date: int, replyTo: MessageId, net: Net, c: nat)
    requires joiners != [] && joiners[0].id in s
    ensures Admit(s, joiners, date, replyTo, net, c)
         == Outcome(s, [Invoke(TimeoutKick(s[joiners[0].id]))], Returned)
  {
  }

  /**
   A new joiner is registered with an answer deadline of `date + 120` and restricted
   until `date + 240`. If that restriction fails, the entry stays without a greeting and
   nothing else happens, not even for later joiners.
   */
  lemma NewJoinerRestricted(s: Greeting.Storage, joiners: seq<User>, date: int, replyTo: MessageId, net: Net, c: nat)
    requires joiners != [] && joiners[0].id !in s
    ensures var u := joiners[0]; var r := Admit(s, joiners, date, replyTo, net, c);
      && r.effects != []
      && r.effects[0] == Call(RestrictAll(u.id, date + 240), net.ok(c))
      && (!net.ok(c) ==>
            r == Outcome(s[u.id := Newbie(u, date + 120, Greeting.GetQuestion(), None)], r.effects, Returned)
            && |r.effects| == 1)
  {
    var u := joiners[0];
    var step := AdmitOne(s, u, date, replyTo, net, c);
    RestrictedFirst(s, u, date, replyTo, net, c);
    if step.Continue? {
      var rest := Admit(step.storage, joiners[1..], date, replyTo, net, c + 2);
      assert Admit(s, joiners, date, replyTo, net, c).effects == step.effects + rest.effects;
    }
  }

  /** A new joiner's first transport call restricts them; if it fails, the iteration stops there. */
  lemma RestrictedFirst(s: Greeting.Storage, u: User, date: int, replyTo: MessageId, net: Net, c: nat)
    requires u.id !in s
    ensures var step := AdmitOne(s, u, date, replyTo, net, c);
      var restrict := Call(RestrictAll(u.id, date + 240), net.ok(c));
      && (step.Continue? ==> step.effects != [] && step.effects[0] == restrict)
      && (step.Stop? ==> step.outcome.effects != [] && step.outcome.effects[0] == restrict)
      && (!net.ok(c) ==>
            step == Stop(Outcome(s[u.id := Newbie(u, date + 120, Greeting.GetQuestion(), None)], [restrict], Returned)))
  {
    var q := Greeting.GetQuestion();
    assert Greeting.Add(s, u, date + q.timeout, q) == Ok(s[u.id := Newbie(u, date + 120, q, None)]);
  }

  /** If posting the question fails, the error escapes with the entry registered and restricted but without a greeting. */
  lemma GreetingNotPosted(s: Greeting.Storage, joiners: seq<User>, date: int, replyTo: MessageId, net: Net, c: nat)
    requires joiners != [] && joiners[0].id !in s
    requires net.ok(c) && !net.ok(c + 1)
    ensures var u := joiners[0]; var r := Admit(s, joiners, date, replyTo, net, c);
      && r.ending == Raised(ApiError)
      && u.id in r.storage && r.storage[u.id].greeting == None
  {
  }

  /**
   When the question is posted and attached, the entry's greeting is the posted message
   and the timeout kick is scheduled after the answer timeout with exactly that entry.
   */
  lemma GreetingAttached(s: Greeting.Storage, u: User, date: int, replyTo: MessageId, net: Net, c: nat)
    requires u.id !in s
    requires net.ok(c) && net.ok(c + 1) && !net.removedMeanwhile(c + 1)
    ensures var entry := Newbie(u, date + 120, Greeting.GetQuestion(), Some(net.posted(c + 1)));
      var r := Admit(s, [u], date, replyTo, net, c);
      && r.storage == s[u.id := entry]
      && r.effects == [Call(RestrictAll(u.id, date + 240), true),
                       Call(SendGreeting(u.id, replyTo), true),
                       Invoke(ScheduleTimeoutKick(120, entry))]
      && r.ending == Returned
  {
    var q := Greeting.GetQuestion();
    var added := s[u.id := Newbie(u, date + 120, q, None)];
    var entry := Newbie(u, date + 120, q, Some(net.posted(c + 1)));
    assert Greeting.Add(s, u, date + q.timeout, q) == Ok(added);
    var restrict := Call(RestrictAll(u.id, date + 240), true);
    var step := AdmitOne(s, u, date, replyTo, net, c);
    assert step == Greet(added, u, replyTo, net, c, restrict, 120);
    assert Greeting.Update(added, u, net.posted(c + 1)) == Ok(added[u.id := entry]);
    assert added[u.id := entry] == s[u.id := entry];
    assert [u][1..] == [];
    assert step.Continue?;
    assert Admit(s, [u], date, replyTo, net, c) == Outcome(step.storage, step.effects + [], Returned);
  }

  /**
   When the entry vanished before the posted question could be attached, the question
   is deleted again and no timeout kick is scheduled.
   */
  lemma AttachFailsDeletesGreeting(s: Greeting.Storage, u: User, date: int, replyTo: MessageId, net: Net, c: nat)
    requires u.id !in s
    requires net.ok(c) && net.ok(c + 1) && net.removedMeanwhile(c + 1)
    ensures var r := Admit(s, [u], date, replyTo, net, c);
      && r.storage == s
      && r.effects == [Call(RestrictAll(u.id, date + 240), true),
                       Call(SendGreeting(u.id, replyTo), true),
                       Invoke(DeleteMessage(net.posted(c + 1).messageId))]
      && r.ending == Returned
  {
    var step := AdmitOne(s, u, date, replyTo, net, c);
    var q := Greeting.GetQuestion();
    var added := s[u.id := Newbie(u, date + q.timeout, q, None)];
    assert Greeting.Remove(added, u) == s;
    assert [u][1..] == [];
    assert Admit(s, [u], date, replyTo, net, c) == Outcome(step.storage, step.effects + [], Returned);
  }

  // ---------------------------------------------------------------------------
  // Answering: `greeting_callback`
  // ---------------------------------------------------------------------------

  /** The reply template for an answer the question does not know. */
  const FallbackReply: string := "*{first_name} ответил \"{call_data}\".*"

  /** The reply template for an answer: the question's own, or the fallback. */
  function ReplyFor(question: GreetingQuestion, data: string): (r: string)
    ensures data in question.reply ==> r == question.reply[data]
    ensures data !in question.reply ==> r == FallbackReply
  {
    if data in question.reply then question.reply[data] else FallbackReply
  }

  /** Whether a button press is the pending user's answer to their own question. */
  predicate IsOwnAnswer(s: Greeting.Storage, call: Callback) {
    && call.message.Some?
    && call.from.id in s
    && s[call.from.id].greeting.Some?
    && call.message.value.messageId == s[call.from.id].greeting.value.messageId
  }

  /**
   `greeting_callback`: a pending user's answer to their own question removes the
   keyboard, posts the reply, forgets the user and then lifts the restriction.
   */
  function Answer(s: Greeting.Storage, call: Callback, net: Net): (r: Outcome)
    ensures Greeting.WellKeyed(s) ==> Greeting.WellKeyed(r.storage)
    ensures r.storage.Keys <= s.Keys
    ensures forall id :: id in r.storage ==> r.storage[id] == s[id]
    ensures Greeting.WellKeyed(s) ==> forall id :: id in s && id != call.from.id ==> id in r.storage
    ensures r.storage != s ==> IsOwnAnswer(s, call) && r.ending == Returned
  {
    if call.message.None? || call.from.id !in s then Outcome(s, [], Returned)
    else
      var newbie := s[call.from.id];
      if newbie.greeting.None? then Outcome(s, [], Raised(NoneAttribute))
      else if call.message.value.messageId != newbie.greeting.value.messageId then Outcome(s, [], Returned)
      else
        var mid := call.message.value.messageId;
        var shown := [Invoke(RemoveKeyboard(mid)), Call(SendReply(ReplyFor(newbie.question, call.data), mid), net.ok(0))];
        if !net.ok(0) then Outcome(s, shown, Raised(ApiError))
        else
          Outcome(Greeting.Remove(s, newbie.user),
                  shown + [Forget(newbie.user.id), Call(AllowMessages(call.from.id), net.ok(1))],
                  Returned)
  }

  /** Presses without a message, by users who are not pending, or on another message change nothing. */
  lemma AnswerIgnored(s: Greeting.Storage, call: Callback, net: Net)
    requires call.message.None? || call.from.id !in s
          || (s[call.from.id].greeting.Some? && call.message.value.messageId != s[call.from.id].greeting.value.messageId)
    ensures Answer(s, call, net) == Outcome(s, [], Returned)
  {
  }

  /**
   A pending user's own answer: the reply is the question's reply for that button (or
   the fallback), the user is forgotten before the restriction is lifted, and a failed
   lift does not bring the entry back.
   */
  lemma AnswerAccepted(s: Greeting.Storage, call: Callback, net: Net)
    requires Greeting.WellKeyed(s) && IsOwnAnswer(s, call) && net.ok(0)
    ensures var r := Answer(s, call, net); var mid := call.message.value.messageId;
      && r.storage == s - {call.from.id}
      && r.effects == [Invoke(RemoveKeyboard(mid)),
                       Call(SendReply(ReplyFor(s[call.from.id].question, call.data), mid), true),
                       Forget(call.from.id),
                       Call(AllowMessages(call.from.id), net.ok(1))]
      && r.ending == Returned
  {
  }

  /** If the reply cannot be posted, the error escapes and the user stays pending. */
  lemma AnswerReplyFails(s: Greeting.Storage, call: Callback, net: Net)
    requires IsOwnAnswer(s, call) && !net.ok(0)
    ensures Answer(s, call, net).storage == s
    ensures Answer(s, call, net).ending == Raised(ApiError)
  {
  }

  /** For the bot's own question, both buttons have their own reply, and any other data gets the fallback. */
  lemma QuestionReplies(data: string)
    ensures data == "да" ==> ReplyFor(Greeting.GetQuestion(), data) == "*{first_name} считает, что да.*"
    ensures data !in {"да", "нет"} ==> ReplyFor(Greeting.GetQuestion(), data) == FallbackReply
  {
  }

  // ---------------------------------------------------------------------------
  // Command guards shared by `pass`, restrict, ban and permit
  // ---------------------------------------------------------------------------

  /** The opening guards every moderation command runs: forwarded commands are ignored, non-admins are refused. */
  function Prelude(cmd: CommandMessage, admins: set<UserId>): (r: Option<Ending>)
    ensures r == None <==> !cmd.forwarded && cmd.message.sender.id in admins
    ensures cmd.forwarded ==> r == Some(Returned)
    ensures !cmd.forwarded && cmd.message.sender.id !in admins ==> r == Some(Raised(UnauthorizedCommand))
  {
    if cmd.forwarded then Some(Returned)
    else if cmd.message.sender.id !in admins then Some(Raised(UnauthorizedCommand))
    else None
  }

  // ---------------------------------------------------------------------------
  // `pass_handler`
  // ---------------------------------------------------------------------------

  /**
   `pass_handler` as written: after its guards it iterates over the registry object
   itself, which defines no iteration, so a non-empty registry always raises.
   */
  function PassAsWritten(s: Greeting.Storage, cmd: CommandMessage, admins: set<UserId>): (r: Outcome)
    ensures r.storage == s && r.effects == []
    ensures Prelude(cmd, admins) == None && cmd.replyTo.Some? && s != map[] ==> r.ending == Raised(NotIterable)
  {
    match Prelude(cmd, admins)
    case Some(e) => Outcome(s, [], e)
    case None =>
      if cmd.replyTo.None? then Outcome(s, [], Returned)
      else if |s| == 0 then Outcome(s, [], Returned)
      else Outcome(s, [], Raised(NotIterable))
  }

  /** A listing of the registry's ids, each once, in iteration order. */
  predicate IsListing(order: seq<UserId>, s: Greeting.Storage) {
    && (forall i :: 0 <= i < |order| ==> order[i] in s)
    && (forall id :: id in s ==> id in order)
    && (forall i, j :: 0 <= i < j < |order| ==> order[i] != order[j])
  }

  datatype ScanResult = NoMatch | Hit(id: UserId) | MissingGreeting(id: UserId)

  /**
   The loop of `pass_handler` over the entries in `order`: the first entry whose greeting
   is the replied-to message, or the first entry still without a greeting, whose
   `greeting.message_id` raises.
   */
  function Scan(s: Greeting.Storage, order: seq<UserId>, target: MessageId): (r: ScanResult)
    requires forall i :: 0 <= i < |order| ==> order[i] in s
    ensures r.Hit? ==> r.id in order && s[r.id].greeting.Some? && s[r.id].greeting.value.messageId == target
    ensures r.MissingGreeting? ==> r.id in order && s[r.id].greeting.None?
    ensures r.NoMatch? ==> forall i :: 0 <= i < |order| ==>
      s[order[i]].greeting.Some? && s[order[i]].greeting.value.messageId != target
    decreases |order|
  {
    if order == [] then NoMatch
    else
      var newbie := s[order[0]];
      if newbie.greeting.None? then MissingGreeting(order[0])
      else if newbie.greeting.value.messageId == target then Hit(order[0])
      else Scan(s, order[1..], target)
  }

  /**
   `pass_handler` with the loop running over the registry's entries: on the entry whose
   question is the replied-to message, delete the command and the question, lift the
   restriction and, if that worked, forget the user.
   */
  function PassCorrected(s: Greeting.Storage, cmd: CommandMessage, admins: set<UserId>, order: seq<UserId>, net: Net): (r: Outcome)
    requires IsListing(order, s)
    ensures Greeting.WellKeyed(s) ==> Greeting.WellKeyed(r.storage)
    ensures r.storage.Keys <= s.Keys && |s.Keys - r.storage.Keys| <= 1
    ensures forall id :: id in r.storage ==> r.storage[id] == s[id]
    ensures r.storage != s ==>
      && Prelude(cmd, admins) == None && cmd.replyTo.Some?
      && Scan(s, order, cmd.replyTo.value.messageId).Hit? && net.ok(0)
  {
    match Prelude(cmd, admins)
    case Some(e) => Outcome(s, [], e)
    case None =>
      if cmd.replyTo.None? || |s| == 0 then Outcome(s, [], Returned)
      else
        match Scan(s, order, cmd.replyTo.value.messageId)
        case NoMatch => Outcome(s, [], Returned)
        case MissingGreeting(_) => Outcome(s, [], Raised(NoneAttribute))
        case Hit(id) =>
          var newbie := s[id];
          var effects := [Invoke(DeleteMessage(cmd.message.messageId)),
                          Invoke(DeleteMessage(newbie.greeting.value.messageId)),
                          Call(AllowMessages(newbie.user.id), net.ok(0))];
          if net.ok(0) then
            assert Greeting.Remove(s, newbie.user).Keys == s.Keys - {newbie.user.id};
            Outcome(Greeting.Remove(s, newbie.user), effects + [Forget(newbie.user.id)], Returned)
          else Outcome(s, effects, Returned)
  }

  /** On a match whose restriction is lifted, exactly the matched user leaves the registry. */
  lemma PassRemovesExactlyOne(s: Greeting.Storage, cmd: CommandMessage, admins: set<UserId>, order: seq<UserId>, net: Net)
    requires IsListing(order, s) && Greeting.WellKeyed(s)
    requires Prelude(cmd, admins) == None && cmd.replyTo.Some? && net.ok(0)
    requires Scan(s, order, cmd.replyTo.value.messageId).Hit?
    ensures var id := Scan(s, order, cmd.replyTo.value.messageId).id;
      && PassCorrected(s, cmd, admins, order, net).storage == s - {id}
      && PassCorrected(s, cmd, admins, order, net).ending == Returned
  {
  }

  /** When no question matches the replied-to message, the command is silently ignored. */
  lemma PassNoMatchIgnored(s: Greeting.Storage, cmd: CommandMessage, admins: set<UserId>, order: seq<UserId>, net: Net)
    requires IsListing(order, s)
    requires Prelude(cmd, admins) == None && cmd.replyTo.Some?
    requires Scan(s, order, cmd.replyTo.value.messageId).NoMatch?
    ensures PassCorrected(s, cmd, admins, order, net) == Outcome(s, [], Returned)
  {
  }

  /**
   Wherever the corrected handler would let a matched user pass, the handler as written
   raises instead and the user stays pending.
   */
  lemma PassAsWrittenNeverPasses(s: Greeting.Storage, cmd: CommandMessage, admins: set<UserId>, order: seq<UserId>, net: Net)
    requires IsListing(order, s) && Greeting.WellKeyed(s)
    requires Prelude(cmd, admins) == None && cmd.replyTo.Some? && net.ok(0)
    requires Scan(s, order, cmd.replyTo.value.messageId).Hit?
    ensures PassAsWritten(s, cmd, admins).ending == Raised(NotIterable)
    ensures PassAsWritten(s, cmd, admins).storage == s
    ensures PassCorrected(s, cmd, admins, order, net).storage != s
  {
    var id := Scan(s, order, cmd.replyTo.value.messageId).id;
    assert id in s && id !in PassCorrected(s, cmd, admins, order, net).storage;
  }

  // ---------------------------------------------------------------------------
  // Moderation commands: restrict, ban, permit
  // ---------------------------------------------------------------------------

  /** The duration a command asks for: the text after the command word, resolved. */
  function CommandDuration(cmd: CommandMessage): Result<DurationDto, Errors.BotError>
  {
    Utils.GetDuration(Utils.PrepareQuery(cmd.message.text))
  }

  /**
   `restrict_handler`: after the opening guards, a missing reply target raises, an admin
   target is left alone, an unreadable duration or an unknown command deletes the
   command, and otherwise the restriction is applied and announced.
   */
  function RestrictCommand(cmd: CommandMessage, kind: Option<RestrictKind>, admins: set<UserId>, net: Net): (r: Reaction)
    ensures Prelude(cmd, admins).Some? ==> r == Reaction([], Prelude(cmd, admins).value)
    ensures r.ending != Returned ==> r.effects == []
    ensures forall e :: e in r.effects && e.Call? && e.action.ApplyRestriction? ==>
      && cmd.replyTo.Some? && e.action.userId == cmd.replyTo.value.sender.id
      && e.action.userId !in admins
      && Const.MinDuration.seconds <= e.action.duration.seconds <= Const.MaxDuration.seconds
  {
    match Prelude(cmd, admins)
    case Some(e) => Reaction([], e)
    case None =>
      if cmd.replyTo.None? then Reaction([], Raised(NoneAttribute))
      else
        var target := cmd.replyTo.value.sender;
        if target.id in admins then Reaction([], Returned)
        else
          match CommandDuration(cmd)
          case Err(_) => Reaction([Invoke(DeleteMessage(cmd.message.messageId))], Returned)
          case Ok(duration) =>
            if kind.None? then Reaction([Invoke(DeleteMessage(cmd.message.messageId))], Returned)
            else
              var apply := Call(ApplyRestriction(kind.value, target.id, duration), net.ok(0));
              if !net.ok(0) then Reaction([apply], Returned)
              else Reaction([apply, Call(SendNotice(cmd.message.messageId), net.ok(1))], Returned)
  }

  /**
   `ban_handler`: after the opening guards, a missing reply target is ignored, an admin
   target or an unreadable duration deletes the command, and otherwise the user is
   banned and the ban announced.
   */
  function BanCommand(cmd: CommandMessage, admins: set<UserId>, net: Net): (r: Reaction)
    ensures Prelude(cmd, admins).Some? ==> r == Reaction([], Prelude(cmd, admins).value)
    ensures r.ending != Returned ==> r.effects == []
    ensures forall e :: e in r.effects && e.Call? && e.action.ApplyBan? ==>
      && cmd.replyTo.Some? && e.action.userId == cmd.replyTo.value.sender.id
      && e.action.userId !in admins
      && Const.MinDuration.seconds <= e.action.duration.seconds <= Const.MaxDuration.seconds
    ensures Prelude(cmd, admins) == None && cmd.replyTo.Some? && cmd.replyTo.value.sender.id !in admins
            && CommandDuration(cmd).Ok? ==>
      && r.ending == Returned && r.effects != []
      && r.effects[0] == Call(ApplyBan(cmd.replyTo.value.sender.id, CommandDuration(cmd).value), net.ok(0))
      && (net.ok(0) ==> |r.effects| == 2 && r.effects[1] == Call(SendNotice(cmd.message.messageId), net.ok(1)))
  {
    match Prelude(cmd, admins)
    case Some(e) => Reaction([], e)
    case None =>
      if cmd.replyTo.None? then Reaction([], Returned)
      else
        var target := cmd.replyTo.value.sender;
        if target.id in admins then Reaction([Invoke(DeleteMessage(cmd.message.messageId))], Returned)
        else
          match CommandDuration(cmd)
          case Err(_) => Reaction([Invoke(DeleteMessage(cmd.message.messageId))], Returned)
          case Ok(duration) =>
            var apply := Call(ApplyBan(target.id, duration), net.ok(0));
            if !net.ok(0) then Reaction([apply], Returned)
            else Reaction([apply, Call(SendNotice(cmd.message.messageId), net.ok(1))], Returned)
  }

  /**
   `permit_handler`: after the opening guards, a missing reply target raises; the
   target's membership is looked up and only a restricted member gets their rights back.
   */
  function PermitCommand(cmd: CommandMessage, admins: set<UserId>, net: Net): (r: Reaction)
    ensures Prelude(cmd, admins).Some? ==> r == Reaction([], Prelude(cmd, admins).value)
    ensures r.ending != Returned ==> r.effects == []
    ensures forall i :: 0 <= i < |r.effects| && r.effects[i].Call? && r.effects[i].action.ApplyReadWrite? ==>
      && i == 1
      && r.effects[0] == Call(GetMember(r.effects[i].action.userId), true)
      && net.memberRestricted(0)
    ensures Prelude(cmd, admins) == None && cmd.replyTo.Some? ==>
      && r.ending == Returned && r.effects != []
      && r.effects[0] == Call(GetMember(cmd.replyTo.value.sender.id), net.ok(0))
    ensures Prelude(cmd, admins) == None && cmd.replyTo.Some? && net.ok(0) && net.memberRestricted(0) ==>
      && |r.effects| >= 2
      && r.effects[1] == Call(ApplyReadWrite(cmd.replyTo.value.sender.id), net.ok(1))
      && (net.ok(1) ==> |r.effects| == 3 && r.effects[2] == Call(SendNotice(cmd.message.messageId), net.ok(2)))
  {
    match Prelude(cmd, admins)
    case Some(e) => Reaction([], e)
    case None =>
      if cmd.replyTo.None? then Reaction([], Raised(NoneAttribute))
      else
        var target := cmd.replyTo.value.sender;
        var lookup := Call(GetMember(target.id), net.ok(0));
        if !net.ok(0) || !net.memberRestricted(0) then Reaction([lookup], Returned)
        else
          var apply := Call(ApplyReadWrite(target.id), net.ok(1));
          if !net.ok(1) then Reaction([lookup, apply], Returned)
          else Reaction([lookup, apply, Call(SendNotice(cmd.message.messageId), net.ok(2))], Returned)
  }

  /** Restricting an administrator is silently refused. */
  lemma RestrictAdminTargetSilent(cmd: CommandMessage, kind: Option<RestrictKind>, admins: set<UserId>, net: Net)
    requires Prelude(cmd, admins) == None && cmd.replyTo.Some? && cmd.replyTo.value.sender.id in admins
    ensures RestrictCommand(cmd, kind, admins, net) == Reaction([], Returned)
  {
  }

  /** Banning an administrator deletes the command and does nothing else. */
  lemma BanAdminTargetDeletes(cmd: CommandMessage, admins: set<UserId>, net: Net)
    requires Prelude(cmd, admins) == None && cmd.replyTo.Some? && cmd.replyTo.value.sender.id in admins
    ensures BanCommand(cmd, admins, net) == Reaction([Invoke(DeleteMessage(cmd.message.messageId))], Returned)
  {
  }

  /** A duration that cannot be read makes restrict delete the command and do nothing else. */
  lemma RestrictMalformedDurationDeletes(cmd: CommandMessage, kind: Option<RestrictKind>, admins: set<UserId>, net: Net)
    requires Prelude(cmd, admins) == None && cmd.replyTo.Some? && cmd.replyTo.value.sender.id !in admins
    requires CommandDuration(cmd).Err?
    ensures RestrictCommand(cmd, kind, admins, net) == Reaction([Invoke(DeleteMessage(cmd.message.messageId))], Returned)
  {
  }

  /** A duration that cannot be read makes ban delete the command and do nothing else. */
  lemma BanMalformedDurationDeletes(cmd: CommandMessage, admins: set<UserId>, net: Net)
    requires Prelude(cmd, admins) == None && cmd.replyTo.Some? && cmd.replyTo.value.sender.id !in admins
    requires CommandDuration(cmd).Err?
    ensures BanCommand(cmd, admins, net) == Reaction([Invoke(DeleteMessage(cmd.message.messageId))], Returned)
  {
  }

  /** The query of `word token` is `token`. */
  lemma QueryOfCommand(word: string, token: string)
    requires IsWord(word) && IsWord(token)
    ensures Utils.PrepareQuery(word + " " + token) == token
  {
    var ws := [word, token];
    assert Join(ws) == word + " " + token by {
      assert Join(ws[1..]) == token;
    }
    SplitJoin(ws);
    assert Drop1(ws) == [token];
    assert AllWords([token]);
    SplitJoin([token]);
    JoinCanonical([token]);
  }

  /**
   A command written as a word, a space, an integer and a unit letter applies the
   restriction the duration resolver computes for that amount and unit.
   */
  lemma RestrictAppliesResolvedDuration(cmd: CommandMessage, kind: RestrictKind, admins: set<UserId>, net: Net,
                                        word: string, amount: int, unit: char)
    requires Prelude(cmd, admins) == None && cmd.replyTo.Some? && cmd.replyTo.value.sender.id !in admins
    requires IsWord(word) && unit in Const.Units
    requires cmd.message.text == word + " " + IntToString(amount) + [unit]
    ensures var r := RestrictCommand(cmd, Some(kind), admins, net);
      r.effects[0] == Call(ApplyRestriction(kind, cmd.replyTo.value.sender.id, Utils.Resolve(amount, Const.Units[unit])), net.ok(0))
  {
    var token := IntToString(amount) + [unit];
    IntToStringIsWord(amount);
    Const.UnitTable();
    assert IsWord(token);
    assert cmd.message.text == word + " " + token;
    QueryOfCommand(word, token);
    Utils.AmountAndUnit(amount, unit);
  }

  /**
   A command written as a word, a space and one token that `get_duration` accepts
   applies exactly that duration, whatever spelling of the amount `int()` took.
   */
  lemma RestrictUsesTokenDuration(cmd: CommandMessage, kind: RestrictKind, admins: set<UserId>, net: Net,
                                  word: string, token: string)
    requires Prelude(cmd, admins) == None && cmd.replyTo.Some? && cmd.replyTo.value.sender.id !in admins
    requires IsWord(word) && IsWord(token) && cmd.message.text == word + " " + token
    requires Utils.GetDuration(token).Ok?
    ensures var r := RestrictCommand(cmd, Some(kind), admins, net);
      && r.effects != []
      && r.effects[0] == Call(ApplyRestriction(kind, cmd.replyTo.value.sender.id, Utils.GetDuration(token).value), net.ok(0))
  {
    QueryOfCommand(word, token);
    assert CommandDuration(cmd) == Utils.GetDuration(token);
    var target := cmd.replyTo.value.sender;
    var apply := Call(ApplyRestriction(kind, target.id, Utils.GetDuration(token).value), net.ok(0));
    assert RestrictCommand(cmd, Some(kind), admins, net).effects[0] == apply;
  }

  /** A command word followed by `05m` restricts for five minutes, like one followed by `5m`. */
  lemma LeadingZeroRestrictsFiveMinutes(cmd: CommandMessage, kind: RestrictKind, admins: set<UserId>, net: Net, word: string)
    requires Prelude(cmd, admins) == None && cmd.replyTo.Some? && cmd.replyTo.value.sender.id !in admins
    requires IsWord(word) && cmd.message.text == word + " " + "05m"
    ensures var r := RestrictCommand(cmd, Some(kind), admins, net);
      && r.effects != []
      && r.effects[0] == Call(ApplyRestriction(kind, cmd.replyTo.value.sender.id, Utils.Resolve(5, Const.Units['m'])), net.ok(0))
  {
    Utils.ZeroFiveMinutes();
    ZeroFiveIsWord();
    RestrictUsesTokenDuration(cmd, kind, admins, net, word, "05m");
  }

  lemma ZeroFiveIsWord()
    ensures IsWord("05m")
  {
    assert IsWord("05m");
  }

  /** A bare command word restricts for the default five minutes. */
  lemma BareCommandUsesDefault(cmd: CommandMessage, kind: RestrictKind, admins: set<UserId>, net: Net)
    requires Prelude(cmd, admins) == None && cmd.replyTo.Some? && cmd.replyTo.value.sender.id !in admins
    requires IsWord(cmd.message.text)
    ensures RestrictCommand(cmd, Some(kind), admins, net).effects[0]
         == Call(ApplyRestriction(kind, cmd.replyTo.value.sender.id, DurationDto(300, "5 минут")), net.ok(0))
  {
    SplitWordPrefix(cmd.message.text, "");
    assert cmd.message.text + "" == cmd.message.text;
    Utils.EmptyIsDefault();
  }

  /** A permit for a member who is not restricted looks them up and does nothing else. */
  lemma PermitNeedsRestrictedMember(cmd: CommandMessage, admins: set<UserId>, net: Net)
    requires Prelude(cmd, admins) == None && cmd.replyTo.Some? && net.ok(0) && !net.memberRestricted(0)
    ensures PermitCommand(cmd, admins, net) == Reaction([Call(GetMember(cmd.replyTo.value.sender.id), true)], Returned)
  {
  }

  /** Some effect of `r` is a ban call. */
  predicate Bans(r: Reaction) {
    exists i :: 0 <= i < |r.effects| && r.effects[i].Call? && r.effects[i].action.ApplyBan?
  }

  /** Some effect of `r` is a call that gives a member their rights back. */
  predicate Restores(r: Reaction) {
    exists i :: 0 <= i < |r.effects| && r.effects[i].Call? && r.effects[i].action.ApplyReadWrite?
  }

  /**
   `ban` bans exactly when the sender may command it, the command replies to a
   non-admin, and its duration can be read.
   */
  lemma BanExactlyWhenValid(cmd: CommandMessage, admins: set<UserId>, net: Net)
    ensures Bans(BanCommand(cmd, admins, net)) <==>
      && Prelude(cmd, admins) == None && cmd.replyTo.Some? && cmd.replyTo.value.sender.id !in admins
      && CommandDuration(cmd).Ok?
  {
    var r := BanCommand(cmd, admins, net);
    if Prelude(cmd, admins) == None && cmd.replyTo.Some? && cmd.replyTo.value.sender.id !in admins {
      if CommandDuration(cmd).Ok? {
        assert r.effects[0].Call? && r.effects[0].action.ApplyBan?;
      } else {
        BanMalformedDurationDeletes(cmd, admins, net);
      }
    }
  }

  /**
   `rw` gives rights back exactly when the sender may command it, the command replies
   to someone, and the lookup succeeds and finds that member restricted.
   */
  lemma RestoreExactlyWhenRestricted(cmd: CommandMessage, admins: set<UserId>, net: Net)
    ensures Restores(PermitCommand(cmd, admins, net)) <==>
      && Prelude(cmd, admins) == None && cmd.replyTo.Some?
      && net.ok(0) && net.memberRestricted(0)
  {
    var r := PermitCommand(cmd, admins, net);
    if Prelude(cmd, admins) == None && cmd.replyTo.Some? && net.ok(0) && net.memberRestricted(0) {
      assert r.effects[1].Call? && r.effects[1].action.ApplyReadWrite?;
    }
  }
}

=== FILE: legacy_utils.dfy ===
/** The older top-level helper module, whose `prepare_query` takes the whole message. */
module LegacyUtils {
  import opened Dto
  import opened PyStr
  import Utils

  /**
   `prepare_query(message)`: the words of the message text after the first, joined by
   single spaces; the same text the newer `prepare_query` gives for that text.
   */
  function PrepareQuery(message: Message): (r: string)
    ensures Split(r) == Drop1(Split(message.text))
    ensures IsCanonical(r)
    ensures |Split(message.text)| <= 1 ==> r == ""
    ensures r == Utils.PrepareQuery(message.text)
  {
    var query := Join(Drop1(Split(message.text)));
    assert query == Utils.PrepareQuery(message.text);
    query
  }
}

=== FILE: notification.dfy ===
/**
 Non-repeating notification texts. Each category keeps a pool of templates. A draw
 refills an empty pool with a shuffled copy of the category's source list and then
 takes the last template off the pool, so within one refill the same list position
 never comes up twice.

 The shuffle is an oracle: `order` is the permutation `random.shuffle` would apply,
 with `order[i]` the source position that lands at pool position `i`.
 */
module Notification {
  import opened Wrappers
  import opened Errors
  import Const

  /** Category name to the templates still to be handed out, drawn from the end. */
  type Pools = map<string, seq<string>>

  /** `order` lists each of the positions `0 .. n-1` exactly once. */
  predicate IsPermutation(order: seq<nat>, n: nat) {
    && |order| == n
    && (forall i :: 0 <= i < n ==> order[i] < n)
    && (forall i, j :: 0 <= i < j < n ==> order[i] != order[j])
  }

  /** The copy of `source` after the shuffle `order`. */
  function Shuffled(source: seq<string>, order: seq<nat>): (r: seq<string>)
    requires IsPermutation(order, |source|)
    ensures |r| == |source|
    ensures forall i :: 0 <= i < |r| ==> r[i] == source[order[i]] && r[i] in source
  {
    seq(|source|, i requires 0 <= i < |source| => source[order[i]])
  }

  /** `_init_list(name, source)`: the category's pool becomes a shuffled copy of the source. */
  function InitList(pools: Pools, name: string, source: seq<string>, order: seq<nat>): (r: Pools)
    requires IsPermutation(order, |source|)
    ensures r.Keys == pools.Keys + {name}
    ensures r[name] == Shuffled(source, order)
    ensures forall k :: k in pools && k != name ==> r[k] == pools[k]
  {
    pools[name := Shuffled(source, order)]
  }

  /** The pools after a draw, and the template drawn or the error `pop` raised. */
  datatype Drawn = Drawn(pools: Pools, template: Result<string, BotError>)

  /** The category's pool as `setdefault` leaves it: the stored one, or a fresh empty list. */
  function PoolOf(pools: Pools, name: string): seq<string>
  {
    if name in pools then pools[name] else []
  }

  /**
   `_get_notification(name, source)`: make sure the category has a pool, refill it
   when it is empty, then pop its last template. An empty source leaves an empty pool
   behind and the pop fails.
   */
  function GetNotification(pools: Pools, name: string, source: seq<string>, order: seq<nat>): (d: Drawn)
    requires IsPermutation(order, |source|)
    ensures d.pools.Keys == pools.Keys + {name}
    ensures forall k :: k in pools && k != name ==> d.pools[k] == pools[k]
    ensures d.template.Err? <==> PoolOf(pools, name) == [] && source == []
    ensures d.template.Err? ==> d.template.error == PopFromEmptyList && d.pools[name] == []
    ensures PoolOf(pools, name) != [] ==>
      var p := PoolOf(pools, name);
      d.template == Ok(p[|p| - 1]) && d.pools[name] == p[..|p| - 1]
    ensures PoolOf(pools, name) == [] && source != [] ==>
      var n := |source|;
      d.template == Ok(source[order[n - 1]]) && d.pools[name] == Shuffled(source, order)[..n - 1]
  {
    var defaulted := pools[name := PoolOf(pools, name)];
    var filled := if |defaulted[name]| == 0 then InitList(defaulted, name, source, order) else defaulted;
    var pool := filled[name];
    if |pool| == 0 then Drawn(filled, Err(PopFromEmptyList))
    else Drawn(filled[name := pool[..|pool| - 1]], Ok(pool[|pool| - 1]))
  }

  /** Every template left in the category's pool comes from its source list. */
  predicate PoolWithin(pools: Pools, name: string, source: seq<string>) {
    forall i :: 0 <= i < |PoolOf(pools, name)| ==> PoolOf(pools, name)[i] in source
  }

  /** A drawn template always comes from the source list, and the pool stays within it. */
  lemma TemplateFromSource(pools: Pools, name: string, source: seq<string>, order: seq<nat>)
    requires IsPermutation(order, |source|)
    ensures var d := GetNotification(pools, name, source, order);
      PoolWithin(pools, name, source) ==>
        && (d.template.Ok? ==> d.template.value in source)
        && PoolWithin(d.pools, name, source)
  {
    var d := GetNotification(pools, name, source, order);
    var p := PoolOf(pools, name);
    if PoolWithin(pools, name, source) {
      if p != [] {
        assert p[|p| - 1] in source;
        assert forall i :: 0 <= i < |p| - 1 ==> p[..|p| - 1][i] == p[i];
      } else if source != [] {
        var s := Shuffled(source, order);
        assert forall i :: 0 <= i < |s| - 1 ==> s[..|s| - 1][i] == s[i];
      }
    }
  }

  /** `k` draws in a row from one category; each draw gets its own shuffle oracle. */
  function Draws(pools: Pools, name: string, source: seq<string>, orders: seq<seq<nat>>): (r: (seq<string>, Pools))
    requires source != []
    requires forall i :: 0 <= i < |orders| ==> IsPermutation(orders[i], |source|)
    ensures |r.0| == |orders|
    decreases |orders|
  {
    if orders == [] then ([], pools)
    else
      var d := GetNotification(pools, name, source, orders[0]);
      var rest := Draws(d.pools, name, source, orders[1..]);
      ([d.template.value] + rest.0, rest.1)
  }

  /** While the pool lasts, draws hand it out from the back and ignore the shuffle oracles. */
  lemma DrainPool(pools: Pools, name: string, source: seq<string>, orders: seq<seq<nat>>)
    requires source != []
    requires forall i :: 0 <= i < |orders| ==> IsPermutation(orders[i], |source|)
    requires name in pools && |orders| <= |pools[name]|
    ensures var p := pools[name]; var k := |orders|;
      && Draws(pools, name, source, orders).1 == pools[name := p[..|p| - k]]
      && forall i :: 0 <= i < k ==> Draws(pools, name, source, orders).0[i] == p[|p| - 1 - i]
  {
    DrainState(pools, name, source, orders);
    DrainOrder(pools, name, source, orders);
  }

  /** `k` draws from a pool of at least `k` templates leave it without its last `k`. */
  lemma {:induction false} DrainState(pools: Pools, name: string, source: seq<string>, orders: seq<seq<nat>>)
    requires source != []
    requires forall i :: 0 <= i < |orders| ==> IsPermutation(orders[i], |source|)
    requires name in pools && |orders| <= |pools[name]|
    ensures var p := pools[name];
      Draws(pools, name, source, orders).1 == pools[name := p[..|p| - |orders|]]
    decreases |orders|
  {
    var p := pools[name];
    var k := |orders|;
    if k == 0 {
      assert p[..|p|] == p;
    } else {
      var q := p[..|p| - 1];
      var next := pools[name := q];
      DrawFromPool(pools, name, source, orders[0]);
      DrainState(next, name, source, orders[1..]);
      assert q[..|q| - (k - 1)] == p[..|p| - k];
      UpdateTwice(pools, name, q, p[..|p| - k]);
    }
  }

  /** A second update of the same key overrides the first. */
  lemma UpdateTwice(m: Pools, key: string, first: seq<string>, second: seq<string>)
    ensures m[key := first][key := second] == m[key := second]
  {
  }

  /** `k` draws from a pool of at least `k` templates hand out its last `k`, last first. */
  lemma {:induction false} DrainOrder(pools: Pools, name: string, source: seq<string>, orders: seq<seq<nat>>)
    requires source != []
    requires forall i :: 0 <= i < |orders| ==> IsPermutation(orders[i], |source|)
    requires name in pools && |orders| <= |pools[name]|
    ensures var p := pools[name];
      forall i :: 0 <= i < |orders| ==> Draws(pools, name, source, orders).0[i] == p[|p| - 1 - i]
    decreases |orders|
  {
    var p := pools[name];
    var k := |orders|;
    if k > 0 {
      var next := pools[name := p[..|p| - 1]];
      DrawFromPool(pools, name, source, orders[0]);
      DrainOrder(next, name, source, orders[1..]);
      var rest := Draws(next, name, source, orders[1..]);
      assert Draws(pools, name, source, orders).0 == [p[|p| - 1]] + rest.0;
      BackwardsAfterLast(Draws(pools, name, source, orders).0, rest.0, p, k);
    }
  }

  /** A draw from a non-empty pool takes its last template and shortens it by one. */
  lemma DrawFromPool(pools: Pools, name: string, source: seq<string>, order: seq<nat>)
    requires IsPermutation(order, |source|)
    requires name in pools && pools[name] != []
    ensures var p := pools[name]; var d := GetNotification(pools, name, source, order);
      d.template == Ok(p[|p| - 1]) && d.pools == pools[name := p[..|p| - 1]]
  {
    var p := pools[name];
    assert PoolOf(pools, name) == p;
  }

  /**
   The last template of `p` followed by `k - 1` templates of `p` without its last,
   read from the back, is `k` templates of `p` read from the back.
   */
  lemma BackwardsAfterLast(out: seq<string>, rest: seq<string>, p: seq<string>, k: nat)
    requires 0 < k <= |p| && |rest| == k - 1 && out == [p[|p| - 1]] + rest
    requires forall i :: 0 <= i < k - 1 ==> rest[i] == p[..|p| - 1][|p| - 2 - i]
    ensures forall i :: 0 <= i < k ==> out[i] == p[|p| - 1 - i]
  {
    forall i | 0 < i < k
      ensures out[i] == p[|p| - 1 - i]
    {
      assert out[i] == rest[i - 1];
    }
  }

  /**
   From an empty pool, as many draws as the source is long hand out the source in the
   reverse of the first shuffle: every source position exactly once, and the pool is
   empty again at the end.
   */
  lemma FullCycle(pools: Pools, name: string, source: seq<string>, orders: seq<seq<nat>>)
    requires source != []
    requires forall i :: 0 <= i < |orders| ==> IsPermutation(orders[i], |source|)
    requires PoolOf(pools, name) == [] && |orders| == |source|
    ensures var n := |source|; var out := Draws(pools, name, source, orders);
      && name in out.1 && out.1[name] == []
      && (forall i :: 0 <= i < n ==> out.0[i] == source[orders[0][n - 1 - i]])
      && IsPermutation(DrawnPositions(orders[0]), n)
  {
    CycleEndsEmpty(pools, name, source, orders);
    CycleReversesShuffle(pools, name, source, orders);
    ReversedPermutation(orders[0], |source|);
  }

  /** The first draw of a cycle refills the pool with the shuffled source and takes its last template. */
  lemma RefillDraw(pools: Pools, name: string, source: seq<string>, order: seq<nat>)
    requires source != [] && IsPermutation(order, |source|)
    requires PoolOf(pools, name) == []
    ensures var s := Shuffled(source, order); var d := GetNotification(pools, name, source, order);
      && d.template == Ok(s[|s| - 1])
      && name in d.pools && d.pools[name] == s[..|s| - 1]
  {
  }

  /** After a full cycle the category's pool is empty again. */
  lemma CycleEndsEmpty(pools: Pools, name: string, source: seq<string>, orders: seq<seq<nat>>)
    requires source != []
    requires forall i :: 0 <= i < |orders| ==> IsPermutation(orders[i], |source|)
    requires PoolOf(pools, name) == [] && |orders| == |source|
    ensures var out := Draws(pools, name, source, orders);
      name in out.1 && out.1[name] == []
  {
    var d := GetNotification(pools, name, source, orders[0]);
    RefillDraw(pools, name, source, orders[0]);
    DrainPool(d.pools, name, source, orders[1..]);
  }

  /** A full cycle hands the source out in the reverse of the first shuffle. */
  lemma CycleReversesShuffle(pools: Pools, name: string, source: seq<string>, orders: seq<seq<nat>>)
    requires source != []
    requires forall i :: 0 <= i < |orders| ==> IsPermutation(orders[i], |source|)
    requires PoolOf(pools, name) == [] && |orders| == |source|
    ensures var n := |source|; var out := Draws(pools, name, source, orders);
      forall i :: 0 <= i < n ==> out.0[i] == source[orders[0][n - 1 - i]]
  {
    var n := |source|;
    var s := Shuffled(source, orders[0]);
    var d := GetNotification(pools, name, source, orders[0]);
    RefillDraw(pools, name, source, orders[0]);
    DrainPool(d.pools, name, source, orders[1..]);
    var later := Draws(d.pools, name, source, orders[1..]);
    assert Draws(pools, name, source, orders).0 == [s[n - 1]] + later.0;
    CycleOrder(Draws(pools, name, source, orders).0, later.0, source, orders[0]);
  }

  /** The first template of a cycle, then the rest of the shuffled pool from the back: the shuffle reversed. */
  lemma CycleOrder(out: seq<string>, rest: seq<string>, source: seq<string>, order: seq<nat>)
    requires source != [] && IsPermutation(order, |source|)
    requires var s := Shuffled(source, order);
      && |rest| == |s| - 1 && out == [s[|s| - 1]] + rest
      && forall i :: 0 <= i < |rest| ==> rest[i] == s[..|s| - 1][|s| - 2 - i]
    ensures forall i :: 0 <= i < |source| ==> out[i] == source[order[|source| - 1 - i]]
  {
    var s := Shuffled(source, order);
    ReversedAfterFirst(out, rest, s);
  }

  /** The last element followed by the rest of a sequence read backwards is the whole sequence read backwards. */
  lemma ReversedAfterFirst(out: seq<string>, rest: seq<string>, s: seq<string>)
    requires |s| > 0 && |rest| == |s| - 1 && out == [s[|s| - 1]] + rest
    requires forall i :: 0 <= i < |rest| ==> rest[i] == s[..|s| - 1][|s| - 2 - i]
    ensures forall i :: 0 <= i < |s| ==> out[i] == s[|s| - 1 - i]
  {
    forall i | 0 < i < |s|
      ensures out[i] == s[|s| - 1 - i]
    {
      assert out[i] == rest[i - 1];
    }
  }

  /** The source positions a full cycle hands out, in drawing order. */
  function DrawnPositions(order: seq<nat>): (r: seq<nat>)
    ensures |r| == |order|
    ensures forall i :: 0 <= i < |r| ==> r[i] == order[|order| - 1 - i]
  {
    seq(|order|, i requires 0 <= i < |order| => order[|order| - 1 - i])
  }

  /** Reading a permutation backwards gives a permutation. */
  lemma ReversedPermutation(order: seq<nat>, n: nat)
    requires IsPermutation(order, n)
    ensures IsPermutation(DrawnPositions(order), n)
  {
    var r := DrawnPositions(order);
    forall i, j | 0 <= i < j < n
      ensures r[i] != r[j]
    {
      assert r[i] == order[n - 1 - i] && r[j] == order[n - 1 - j];
    }
  }

  /** The notification categories of the bot. */
  datatype Category = ReadOnly | TextOnly | ReadWrite | TimeoutKick | BanKick | UnauthorizedPunishment

  /** The pool name each public method passes to `_get_notification`. */
  function Key(c: Category): string
  {
    match c
    case ReadOnly => "read_only"
    case TextOnly => "text_only"
    case ReadWrite => "read_write"
    case TimeoutKick => "timeout_kick"
    case BanKick => "ban_kick"
    case UnauthorizedPunishment => "unauthorized_punishment"
  }

  /** Distinct categories use distinct pools. */
  lemma KeysDistinct(a: Category, b: Category)
    requires a != b
    ensures Key(a) != Key(b)
  {
    assert |Key(a)| != |Key(b)| || Key(a)[0] != Key(b)[0];
  }

  /** The four template lists this version of the constants does not define. */
  datatype OtherTemplates = OtherTemplates(
    readWrite: seq<string>,
    timeoutKick: seq<string>,
    banKick: seq<string>,
    unauthorizedPunishment: seq<string>)

  /** The source list of a category. */
  function Source(c: Category, others: OtherTemplates): seq<string>
  {
    match c
    case ReadOnly => Const.ReadOnlyTemplates
    case TextOnly => Const.TextOnlyTemplates
    case ReadWrite => others.readWrite
    case TimeoutKick => others.timeoutKick
    case BanKick => others.banKick
    case UnauthorizedPunishment => others.unauthorizedPunishment
  }

  /**
   `read_only`, `text_only`, `read_write`, `timeout_kick`, `ban_kick`,
   `unauthorized_punishment`: draw a template of the category. Filling in the name and
   duration text is left out.
   */
  function Notify(pools: Pools, c: Category, others: OtherTemplates, order: seq<nat>): (d: Drawn)
    requires IsPermutation(order, |Source(c, others)|)
    ensures forall other: Category :: other != c && Key(other) in pools ==>
      Key(other) in d.pools && d.pools[Key(other)] == pools[Key(other)]
    ensures d.template.Ok? && PoolWithin(pools, Key(c), Source(c, others)) ==> d.template.value in Source(c, others)
    ensures PoolWithin(pools, Key(c), Source(c, others)) ==> PoolWithin(d.pools, Key(c), Source(c, others))
    ensures c == ReadOnly || c == TextOnly ==> d.template.Ok?
  {
    forall other: Category | other != c ensures Key(other) != Key(c) {
      KeysDistinct(other, c);
    }
    TemplateFromSource(pools, Key(c), Source(c, others), order);
    GetNotification(pools, Key(c), Source(c, others), order)
  }
}

=== FILE: pyint.dfy ===
/**
 Python's `int(text)` and `str(n)` for the integers the bot handles.

 `int` accepts surrounding whitespace, an optional sign and decimal digits.
 The whitespace it skips is that of `str.isspace()` without the four ASCII
 information separators U+001C-U+001F, which `int` rejects wherever they occur.
 Underscore digit separators and non-ASCII digits, which Python also accepts,
 are not part of this model.
 */
module PyInt {
  import opened Wrappers
  import opened PyStr

  predicate IsDigit(c: char) {
    '0' <= c <= '9'
  }

  /** A non-empty run of ASCII decimal digits. */
  predicate IsDigits(d: string) {
    |d| > 0 && forall i :: 0 <= i < |d| ==> IsDigit(d[i])
  }

  function DigitValue(c: char): (v: nat)
    requires IsDigit(c)
    ensures v < 10
  {
    (c as int) - ('0' as int)
  }

  function DigitChar(k: nat): (c: char)
    requires k < 10
    ensures IsDigit(c) && DigitValue(c) == k
  {
    ((('0' as int) + k) as char)
  }

  /** The value of a decimal digit string, most significant digit first. */
  function DigitsValue(d: string): nat
    requires forall i :: 0 <= i < |d| ==> IsDigit(d[i])
  {
    if |d| == 0 then 0 else DigitsValue(d[..|d| - 1]) * 10 + DigitValue(d[|d| - 1])
  }

  /** The ASCII information separators: `str.isspace()` accepts them, `int()` neither skips nor reads them. */
  predicate IsSeparator(c: char) {
    '\U{1C}' <= c <= '\U{1F}'
  }

  predicate NoSeparator(s: string) {
    forall i :: 0 <= i < |s| ==> !IsSeparator(s[i])
  }

  /** The whitespace `int()` skips: `\t`, `\n`, `\v`, `\f`, `\r`, the space, and non-ASCII whitespace. */
  predicate IntSpace(c: char) {
    ('\t' <= c <= '\r') || c == ' ' || (c >= '\U{80}' && IsSpace(c))
  }

  /** `int()` skips exactly the whitespace `strip()` removes, except the separators. */
  lemma SpaceClasses(c: char)
    ensures IntSpace(c) <==> IsSpace(c) && !IsSeparator(c)
  {
  }

  /**
   `int(s)`, with `None` where Python raises `ValueError`. A text with a separator is
   never an integer; on any other text `strip()` removes exactly the whitespace `int()`
   skips (`SpaceClasses`).
   */
  function ParseInt(s: string): Option<int>
  {
    if !NoSeparator(s) then None
    else
      var t := Strip(s);
      if |t| > 0 && (t[0] == '-' || t[0] == '+') then
        if IsDigits(t[1..]) then
          var magnitude: int := DigitsValue(t[1..]);
          Some(if t[0] == '-' then -magnitude else magnitude)
        else None
      else if IsDigits(t) then Some(DigitsValue(t))
      else None
  }

  /** `str(n)` for `n >= 0`: decimal digits without leading zeros. */
  function NatToString(n: nat): string
  {
    if n < 10 then [DigitChar(n)] else NatToString(n / 10) + [DigitChar(n % 10)]
  }

  /** `str(n)`: a minus sign for negative numbers, then the digits of the magnitude. */
  function IntToString(n: int): string
  {
    if n < 0 then "-" + NatToString(-n) else NatToString(n)
  }

  /** The digits `str` writes for a natural number read back as that number. */
  lemma {:induction false} NatToStringValue(n: nat)
    ensures IsDigits(NatToString(n))
    ensures DigitsValue(NatToString(n)) == n
    decreases n
  {
    if n >= 10 {
      var p := NatToString(n / 10);
      NatToStringValue(n / 10);
      var s := p + [DigitChar(n % 10)];
      assert s[..|s| - 1] == p;
    }
  }

  /** `int(str(n)) == n` for every integer. */
  lemma ParseIntToString(n: int)
    ensures ParseInt(IntToString(n)) == Some(n)
  {
    var s := IntToString(n);
    NatToStringValue(if n < 0 then -n else n);
    assert !IsSpace(s[0]) && !IsSpace(s[|s| - 1]);
    StripProperties(s);
    if n < 0 {
      assert s[1..] == NatToString(-n);
      assert forall i :: 1 <= i < |s| ==> s[i] == NatToString(-n)[i - 1];
    }
    assert NoSeparator(s);
  }

  /** A separator anywhere in the text makes it no integer: `int("\x1c5")` raises. */
  lemma SeparatorIsNoInt(s: string, i: nat)
    requires i < |s| && IsSeparator(s[i])
    ensures ParseInt(s) == None
  {
  }

  /** `str(n)` is a single token: it holds no whitespace. */
  lemma IntToStringIsWord(n: int)
    ensures IsWord(IntToString(n))
  {
    NatToStringValue(if n < 0 then -n else n);
    var s := IntToString(n);
    if n < 0 {
      assert forall i :: 1 <= i < |s| ==> s[i] == NatToString(-n)[i - 1];
    }
  }

  /** Text whose last character is neither a digit nor whitespace is never an integer, e.g. `"10m"`. */
  lemma NotIntEndingInLetter(s: string)
    requires s != [] && !IsDigit(s[|s| - 1]) && !IsSpace(s[|s| - 1])
    ensures ParseInt(s) == None
  {
    StripProperties(s);
    var t := Strip(s);
    if |t| > 1 {
      assert t[1..][|t| - 2] == t[|t| - 1];
    }
  }
}

=== FILE: pystr.dfy ===
/**
 The Python string operations the bot relies on: whitespace as `str.isspace` sees it,
 `str.split()` with no separator, `' '.join`, `str.strip()`, and slicing with
 out-of-range bounds.
 */
module PyStr {

  /** The characters `str.isspace()` accepts; `split()` and `strip()` cut on exactly these. */
  predicate IsSpace(c: char) {
    || ('\t' <= c <= '\r')
    || ('\U{1C}' <= c <= '\U{1F}')
    || c == ' '
    || c == '\U{85}'
    || c == '\U{A0}'
    || c == '\U{1680}'
    || ('\U{2000}' <= c <= '\U{200A}')
    || c == '\U{2028}'
    || c == '\U{2029}'
    || c == '\U{202F}'
    || c == '\U{205F}'
    || c == '\U{3000}'
  }

  /** A token of `split()`: non-empty and free of whitespace. */
  predicate IsWord(w: string) {
    |w| > 0 && forall i :: 0 <= i < |w| ==> !IsSpace(w[i])
  }

  predicate AllWords(ws: seq<string>) {
    forall i :: 0 <= i < |ws| ==> IsWord(ws[i])
  }

  /**
   The shape `' '.join` of words produces: no whitespace at either end, no whitespace
   other than the plain space, and never two whitespace characters in a row.
   */
  predicate IsCanonical(s: string) {
    && (|s| > 0 ==> !IsSpace(s[0]) && !IsSpace(s[|s| - 1]))
    && (forall i :: 0 <= i < |s| && IsSpace(s[i]) ==> s[i] == ' ')
    && (forall i :: 0 <= i < |s| - 1 ==> !(IsSpace(s[i]) && IsSpace(s[i + 1])))
  }

  /** The length of the longest whitespace-free prefix of `s`. */
  function WordLength(s: string): (n: nat)
    ensures n <= |s|
    ensures forall i :: 0 <= i < n ==> !IsSpace(s[i])
    ensures n < |s| ==> IsSpace(s[n])
  {
    if s == [] || IsSpace(s[0]) then 0 else 1 + WordLength(s[1..])
  }

  /** `s.split()`: the maximal whitespace-free runs of `s`, in order. */
  function Split(s: string): (ws: seq<string>)
    ensures AllWords(ws)
    decreases |s|
  {
    if s == [] then []
    else if IsSpace(s[0]) then Split(s[1..])
    else
      var n := WordLength(s);
      [s[..n]] + Split(s[n..])
  }

  /** `' '.join(ws)`. */
  function Join(ws: seq<string>): string
  {
    if |ws| == 0 then ""
    else if |ws| == 1 then ws[0]
    else ws[0] + " " + Join(ws[1..])
  }

  /** Python's `xs[1:]`, which is empty for an empty list. */
  function Drop1<T>(xs: seq<T>): (r: seq<T>)
    ensures |xs| > 0 ==> xs == xs[..1] + r
    ensures |xs| == 0 ==> r == []
  {
    if |xs| == 0 then [] else xs[1..]
  }

  /** A word followed by nothing or by whitespace splits off as one token. */
  lemma SplitWordPrefix(w: string, s: string)
    requires IsWord(w)
    requires s == [] || IsSpace(s[0])
    ensures Split(w + s) == [w] + Split(s)
  {
    var t := w + s;
    var n := WordLength(t);
    assert forall i :: 0 <= i < |w| ==> t[i] == w[i];
    assert s != [] ==> t[|w|] == s[0];
    assert n == |w|;
    assert t[..n] == w;
    assert t[n..] == s;
  }

  /** Splitting a join of words gives the words back. */
  lemma {:induction false} SplitJoin(ws: seq<string>)
    requires AllWords(ws)
    ensures Split(Join(ws)) == ws
    decreases |ws|
  {
    if |ws| == 0 {
    } else if |ws| == 1 {
      SplitWordPrefix(ws[0], "");
      assert ws[0] + "" == ws[0];
    } else {
      SplitJoin(ws[1..]);
      SplitJoinStep(ws);
    }
  }

  /** One step of `SplitJoin`: the first word splits off, then the join of the others. */
  lemma SplitJoinStep(ws: seq<string>)
    requires |ws| > 1 && IsWord(ws[0])
    ensures Split(Join(ws)) == [ws[0]] + Split(Join(ws[1..]))
  {
    var rest := Join(ws[1..]);
    SplitWordPrefix(ws[0], " " + rest);
    assert Join(ws) == ws[0] + (" " + rest);
    assert (" " + rest)[1..] == rest;
  }

  /** A join of at least one word starts and ends with a word character. */
  lemma {:induction false} JoinEnds(ws: seq<string>)
    requires AllWords(ws) && |ws| > 0
    ensures |Join(ws)| > 0
    ensures !IsSpace(Join(ws)[0]) && !IsSpace(Join(ws)[|Join(ws)| - 1])
    decreases |ws|
  {
    if |ws| > 1 {
      JoinEnds(ws[1..]);
      var rest := Join(ws[1..]);
      assert Join(ws) == ws[0] + " " + rest;
      assert Join(ws)[0] == ws[0][0];
      assert Join(ws)[|Join(ws)| - 1] == rest[|rest| - 1];
    }
  }

  /** A join of words is canonical: this is what makes `prepare_query` output tidy. */
  lemma {:induction false} JoinCanonical(ws: seq<string>)
    requires AllWords(ws)
    ensures IsCanonical(Join(ws))
    decreases |ws|
  {
    if |ws| == 0 {
    } else if |ws| == 1 {
      JoinEnds(ws);
    } else {
      var w := ws[0];
      var rest := Join(ws[1..]);
      JoinCanonical(ws[1..]);
      JoinEnds(ws);
      JoinEnds(ws[1..]);
      var s := Join(ws);
      assert s == w + " " + rest;
      assert |s| == |w| + 1 + |rest|;
      forall i | 0 <= i < |s| && IsSpace(s[i])
        ensures s[i] == ' '
      {
        if i > |w| {
          assert s[i] == rest[i - |w| - 1];
        }
      }
      forall i | 0 <= i < |s| - 1
        ensures !(IsSpace(s[i]) && IsSpace(s[i + 1]))
      {
        if i < |w| - 1 {
          assert s[i] == w[i];
        } else if i == |w| - 1 {
          assert s[i] == w[i];
        } else if i == |w| {
          assert s[i + 1] == rest[0];
        } else {
          assert s[i] == rest[i - |w| - 1];
          assert s[i + 1] == rest[i - |w|];
        }
      }
    }
  }

  /** `s.lstrip()`: `s` without its leading whitespace. */
  function TrimLeft(s: string): (r: string)
    ensures |r| <= |s| && r == s[|s| - |r|..]
    ensures forall i :: 0 <= i < |s| - |r| ==> IsSpace(s[i])
    ensures r == [] || !IsSpace(r[0])
  {
    if s != [] && IsSpace(s[0]) then TrimLeft(s[1..]) else s
  }

  /** `s.rstrip()`: `s` without its trailing whitespace. */
  function TrimRight(s: string): (r: string)
    ensures |r| <= |s| && r == s[..|r|]
    ensures forall i :: |r| <= i < |s| ==> IsSpace(s[i])
    ensures r == [] || !IsSpace(r[|r| - 1])
  {
    if s != [] && IsSpace(s[|s| - 1]) then TrimRight(s[..|s| - 1]) else s
  }

  /** `s.strip()`. */
  function Strip(s: string): string
  {
    TrimRight(TrimLeft(s))
  }

  /** Stripping removes whitespace only at the ends, and nothing from a string whose ends are not whitespace. */
  lemma StripProperties(s: string)
    ensures var r := Strip(s); r == [] || (!IsSpace(r[0]) && !IsSpace(r[|r| - 1]))
    ensures s != [] && !IsSpace(s[0]) && !IsSpace(s[|s| - 1]) ==> Strip(s) == s
    ensures s != [] && !IsSpace(s[|s| - 1]) ==> Strip(s) != [] && Strip(s)[|Strip(s)| - 1] == s[|s| - 1]
  {
    var l := TrimLeft(s);
    if s != [] && !IsSpace(s[|s| - 1]) {
      assert l[|l| - 1] == s[|s| - 1];
    }
  }

  /** Every character of `t` is whitespace. */
  predicate AllSpace(t: string) {
    forall k :: 0 <= k < |t| ==> IsSpace(t[k])
  }

  /** How many whitespace characters `s` starts with. */
  function LeadingSpaces(s: string): (n: nat)
    ensures n <= |s|
    ensures forall k :: 0 <= k < n ==> IsSpace(s[k])
    ensures n < |s| ==> !IsSpace(s[n])
  {
    if s != [] && IsSpace(s[0]) then 1 + LeadingSpaces(s[1..]) else 0
  }

  /** `r` is the part of `v` after its leading whitespace, followed in `v` only by whitespace. */
  predicate WindowOf(v: string, r: string) {
    var i := LeadingSpaces(v);
    i + |r| <= |v| && r == v[i..i + |r|] && AllSpace(v[i + |r|..])
  }

  /** Whitespace up to `a` and none at `a`: the leading whitespace ends exactly at `a`. */
  lemma LeadingEndsAt(v: string, a: nat)
    requires a < |v| && !IsSpace(v[a])
    requires forall k :: 0 <= k < a ==> IsSpace(v[k])
    ensures LeadingSpaces(v) == a
  {
  }

  /**
   A window that starts at `a`, ends in no whitespace, and is followed by whitespace only
   from just after `b`, where `v[b]` is no whitespace, runs from `a` to `b`.
   */
  lemma WindowEndsAt(v: string, r: string, a: nat, b: nat)
    requires WindowOf(v, r) && LeadingSpaces(v) == a
    requires r == [] || !IsSpace(r[|r| - 1])
    requires a <= b < |v| && !IsSpace(v[b])
    requires forall k :: b < k < |v| ==> IsSpace(v[k])
    ensures r == v[a..b + 1]
  {
  }

  /** `s.strip()` is what follows the leading whitespace of `s`, up to a run of trailing whitespace. */
  lemma StripWindow(s: string)
    ensures var r := Strip(s); var i := LeadingSpaces(s);
      && i + |r| <= |s| && r == s[i..i + |r|]
      && AllSpace(s[i + |r|..])
  {
    TrimLeftAfterLeading(s);
    TrimRightWithin(s, TrimLeft(s), LeadingSpaces(s));
  }

  /** `s.lstrip()` is `s` from its first non-whitespace character on. */
  lemma TrimLeftAfterLeading(s: string)
    ensures TrimLeft(s) == s[LeadingSpaces(s)..]
  {
  }

  /** Right-stripping the tail `l` of `s` from position `i` leaves a stretch of `s` followed only by whitespace. */
  lemma TrimRightWithin(s: string, l: string, i: nat)
    requires i <= |s| && l == s[i..]
    ensures var r := TrimRight(l);
      && i + |r| <= |s| && r == s[i..i + |r|]
      && AllSpace(s[i + |r|..])
  {
    var r := TrimRight(l);
    assert s[i + |r|..] == l[|r|..];
  }

  /** Python's `s[:n]` for `n >= 0`: at most the first `n` characters. */
  function Head(s: string, n: nat): (r: string)
    ensures |r| == if n < |s| then n else |s|
    ensures r == s[..|r|]
  {
    if n < |s| then s[..n] else s
  }

  /** Python's `s[-n:]` for `n > 0`: at most the last `n` characters. */
  function Tail(s: string, n: nat): (r: string)
    requires n > 0
    ensures |r| == if n < |s| then n else |s|
    ensures r == s[|s| - |r|..]
  {
    if n < |s| then s[|s| - n..] else s
  }

  /** Python's `c * k`: `k` copies of `c`, and the empty string when `k <= 0`. */
  function Repeat(c: char, k: int): (r: string)
    ensures |r| == if k < 0 then 0 else k
    ensures forall i :: 0 <= i < |r| ==> r[i] == c
    decreases if k < 0 then 0 else k
  {
    if k <= 0 then "" else [c] + Repeat(c, k - 1)
  }
}

=== FILE: restriction.dfy ===
/**
 The record of users the bot has restricted. A record is a user plus a payload this
 model treats as opaque. Adding overwrites any earlier record for the same user,
 nothing is ever removed, and looking up a user never recorded fails.
 */
module Restriction {
  import opened Wrappers
  import opened Errors
  import opened Dto

  /** A restriction record: whom it concerns and what the bot stored about it. */
  datatype RestrictedUser<P> = RestrictedUser(user: User, payload: P)

  type Storage<P> = map<UserId, RestrictedUser<P>>

  /** `add(restricted)`: file the record under its user's id, replacing any earlier one. */
  function Add<P>(s: Storage<P>, restricted: RestrictedUser<P>): (r: Storage<P>)
    ensures r.Keys == s.Keys + {restricted.user.id}
    ensures r[restricted.user.id] == restricted
    ensures forall id :: id in s && id != restricted.user.id ==> r[id] == s[id]
  {
    s[restricted.user.id := restricted]
  }

  /** `get(user)`: the user's record, or not-found. */
  function Get<P>(s: Storage<P>, user: User): (r: Result<RestrictedUser<P>, BotError>)
    ensures r.Ok? <==> user.id in s
    ensures r.Ok? ==> r.value == s[user.id]
    ensures r.Err? ==> r.error == UserNotFoundInStorage
  {
    if user.id in s then Ok(s[user.id]) else Err(UserNotFoundInStorage)
  }

  /** Reading back a user just added gives exactly what was added, whatever was there before. */
  lemma GetAfterAdd<P>(s: Storage<P>, restricted: RestrictedUser<P>, user: User)
    requires user.id == restricted.user.id
    ensures Get(Add(s, restricted), user) == Ok(restricted)
  {
  }

  /** Adding one user's record does not change what any other user reads back. */
  lemma AddIsLocal<P>(s: Storage<P>, restricted: RestrictedUser<P>, user: User)
    requires user.id != restricted.user.id
    ensures Get(Add(s, restricted), user) == Get(s, user)
  {
  }

  /** A sequence of `add` calls, in order. */
  function AddAll<P>(s: Storage<P>, rs: seq<RestrictedUser<P>>): Storage<P>
    decreases |rs|
  {
    if rs == [] then s else AddAll(Add(s, rs[0]), rs[1..])
  }

  /** The ids of a sequence of records. */
  function Ids<P>(rs: seq<RestrictedUser<P>>): set<UserId>
  {
    set i | 0 <= i < |rs| :: rs[i].user.id
  }

  /** There is no removal, so after any run of `add` calls the key set is the old one plus the added ids. */
  lemma {:induction false} KeysOnlyGrow<P>(s: Storage<P>, rs: seq<RestrictedUser<P>>)
    ensures AddAll(s, rs).Keys == s.Keys + Ids(rs)
    decreases |rs|
  {
    if rs != [] {
      KeysOnlyGrow(Add(s, rs[0]), rs[1..]);
      assert Ids(rs) == {rs[0].user.id} + Ids(rs[1..]) by {
        forall id | id in Ids(rs) ensures id in {rs[0].user.id} + Ids(rs[1..]) {
          var i :| 0 <= i < |rs| && rs[i].user.id == id;
          if i > 0 {
            assert rs[1..][i - 1] == rs[i];
          }
        }
        forall id | id in Ids(rs[1..]) ensures id in Ids(rs) {
          var i :| 0 <= i < |rs[1..]| && rs[1..][i].user.id == id;
          assert rs[i + 1] == rs[1..][i];
        }
      }
    }
  }

  /** After a run of `add` calls, a user's record is the last one added for them. */
  lemma {:induction false} LastWriteWins<P>(s: Storage<P>, rs: seq<RestrictedUser<P>>, k: nat)
    requires k < |rs|
    requires forall j :: k < j < |rs| ==> rs[j].user.id != rs[k].user.id
    ensures Get(AddAll(s, rs), rs[k].user) == Ok(rs[k])
    decreases |rs|
  {
    var rest := rs[1..];
    if k == 0 {
      NotAddedUnchanged(Add(s, rs[0]), rest, rs[0].user.id);
    } else {
      forall j | k - 1 < j < |rest|
        ensures rest[j].user.id != rest[k - 1].user.id
      {
        assert rest[j] == rs[j + 1];
      }
      LastWriteWins(Add(s, rs[0]), rest, k - 1);
    }
  }

  /** A user none of the added records mentions keeps their record, or their absence. */
  lemma {:induction false} NotAddedUnchanged<P>(s: Storage<P>, rs: seq<RestrictedUser<P>>, id: UserId)
    requires forall j :: 0 <= j < |rs| ==> rs[j].user.id != id
    ensures (id in AddAll(s, rs)) == (id in s)
    ensures id in s ==> AddAll(s, rs)[id] == s[id]
    decreases |rs|
  {
    if rs != [] {
      assert forall j :: 0 <= j < |rs[1..]| ==> rs[1..][j] == rs[j + 1];
      NotAddedUnchanged(Add(s, rs[0]), rs[1..], id);
    }
  }
}

=== FILE: utils.dfy ===
/**
 The bot's text utilities: dropping the command word from a message, reading a
 restriction duration such as `"10m"` or `"3d"`, and choosing the plural form of
 a unit word by the Russian numeral-agreement rule.
 */
module Utils {
  import opened Wrappers
  import opened Errors
  import opened Dto
  import opened Const
  import opened PyStr
  import opened PyInt

  /**
   `prepare_query(text)`: the words of `text` after the first, joined by single spaces.
   Text of zero or one word gives the empty string.
   */
  function PrepareQuery(text: string): (r: string)
    ensures Split(r) == Drop1(Split(text))
    ensures IsCanonical(r)
    ensures |Split(text)| <= 1 ==> r == ""
  {
    var words := Split(text);
    var rest := Drop1(words);
    assert AllWords(rest) by {
      if |words| > 0 {
        assert forall i :: 0 <= i < |rest| ==> rest[i] == words[i + 1];
      }
    }
    SplitJoin(rest);
    JoinCanonical(rest);
    Join(rest)
  }

  /** The command word is dropped and the arguments are kept, as the source's own example shows. */
  lemma PrepareQueryExample()
    ensures PrepareQuery("/getUser rudeboy from rude qa") == "rudeboy from rude qa"
  {
    var words := ["/getUser", "rudeboy", "from", "rude", "qa"];
    ExampleWords();
    SplitJoin(words);
    assert Drop1(words) == ["rudeboy", "from", "rude", "qa"];
    ArgumentsJoin();
  }

  lemma ExampleWords()
    ensures AllWords(["/getUser", "rudeboy", "from", "rude", "qa"])
    ensures Join(["/getUser", "rudeboy", "from", "rude", "qa"]) == "/getUser rudeboy from rude qa"
  {
    ExampleAreWords();
    var words := ["/getUser", "rudeboy", "from", "rude", "qa"];
    assert words[1..] == ["rudeboy", "from", "rude", "qa"];
    ArgumentsJoin();
  }

  lemma ArgumentsJoin()
    ensures Join(["rudeboy", "from", "rude", "qa"]) == "rudeboy from rude qa"
  {
    var args := ["rudeboy", "from", "rude", "qa"];
    assert args[1..] == ["from", "rude", "qa"];
    assert args[1..][1..] == ["rude", "qa"];
    assert Join(["rude", "qa"]) == "rude qa";
    assert Join(["from", "rude", "qa"]) == "from rude qa";
  }

  lemma ExampleAreWords()
    ensures AllWords(["/getUser", "rudeboy", "from", "rude", "qa"])
  {
    assert IsWord("/getUser") && IsWord("rudeboy") && IsWord("from");
    assert IsWord("rude") && IsWord("qa");
  }

  /**
   `get_plural(amount, forms)`: `form1` for 1, 21, 31, ...; `form2` for 2-4, 22-24, ...;
   `form3` for everything else, including 11-14. Python's `%` by a positive divisor
   agrees with Dafny's.
   */
  function GetPlural(amount: int, forms: PluralForms): (r: string)
    ensures r == forms.form1 || r == forms.form2 || r == forms.form3
  {
    if amount % 10 == 1 && amount % 100 != 11 then forms.form1
    else if 2 <= amount % 10 <= 4 && (amount % 100 < 10 || amount % 100 >= 20) then forms.form2
    else forms.form3
  }

  /**
   The numeral-agreement rule read off the last two decimal digits: a tens digit of 1
   always takes the third form; otherwise a units digit of 1 takes the first form and
   a units digit of 2, 3 or 4 the second.
   */
  function PluralByDigits(n: int, forms: PluralForms): string
  {
    var units := n % 10;
    var tens := (n / 10) % 10;
    if tens == 1 then forms.form3
    else if units == 1 then forms.form1
    else if 2 <= units <= 4 then forms.form2
    else forms.form3
  }

  /** The last two digits of `n` are its tens digit and its units digit. */
  lemma LastTwoDigits(n: int)
    ensures n % 100 == 10 * ((n / 10) % 10) + n % 10
  {
    var q := n / 10;
    var u := n % 10;
    var v := q % 10;
    var w := q / 10;
    assert n == 10 * q + u;
    assert q == 10 * w + v;
    assert n == 100 * w + (10 * v + u);
    assert 0 <= 10 * v + u < 100;
  }

  /** `get_plural` implements the digit rule for every integer. */
  lemma PluralRule(n: int, forms: PluralForms)
    ensures GetPlural(n, forms) == PluralByDigits(n, forms)
  {
    LastTwoDigits(n);
  }

  /** The plural form depends only on the last two digits. */
  lemma PluralPeriodic(n: int, forms: PluralForms)
    ensures GetPlural(n + 100, forms) == GetPlural(n, forms)
  {
    assert (n + 100) % 100 == n % 100;
    assert (n + 100) % 10 == n % 10;
  }

  /** The examples the numeral rule is known by. */
  lemma PluralExamples(f: PluralForms)
    ensures GetPlural(1, f) == f.form1 && GetPlural(21, f) == f.form1
    ensures GetPlural(2, f) == f.form2 && GetPlural(3, f) == f.form2 && GetPlural(4, f) == f.form2
    ensures GetPlural(22, f) == f.form2 && GetPlural(23, f) == f.form2 && GetPlural(24, f) == f.form2
    ensures forall n :: 5 <= n <= 20 ==> GetPlural(n, f) == f.form3
    ensures GetPlural(25, f) == f.form3
  {
  }

  /** `x` pushed into `[lo, hi]`. */
  function Clamp(x: int, lo: int, hi: int): (r: int)
    requires lo <= hi
    ensures lo <= r <= hi
    ensures lo <= x <= hi ==> r == x
  {
    if x < lo then lo else if x > hi then hi else x
  }

  /**
   The clamping step of `get_duration` for a parsed amount and a unit row.
   Out of range, the result is the literal `MinDuration` or `MaxDuration` record;
   its seconds are the product clamped into the bounds either way.
   */
  function Resolve(amount: int, unit: UnitSetting): (r: DurationDto)
    ensures r.seconds == Clamp(amount * unit.rate, MinDuration.seconds, MaxDuration.seconds)
    ensures amount * unit.rate < MinDuration.seconds ==> r == MinDuration
    ensures amount * unit.rate > MaxDuration.seconds ==> r == MaxDuration
    ensures MinDuration.seconds <= amount * unit.rate <= MaxDuration.seconds ==>
      r.text == IntToString(amount) + " " + GetPlural(amount, unit.forms)
  {
    var seconds := amount * unit.rate;
    if seconds < MinDuration.seconds then MinDuration
    else if seconds > MaxDuration.seconds then MaxDuration
    else DurationDto(seconds, IntToString(amount) + " " + GetPlural(amount, unit.forms))
  }

  /** A larger amount of the same unit never gives a shorter restriction. */
  lemma ResolveMonotone(a: int, b: int, unit: UnitSetting)
    requires a <= b && unit.rate > 0
    ensures Resolve(a, unit).seconds <= Resolve(b, unit).seconds
  {
    assert a * unit.rate <= b * unit.rate by {
      assert (b - a) * unit.rate >= 0;
    }
  }

  /**
   When `get_duration` raises: the text is non-empty, is not an integer, and either
   its last character is not a unit symbol or the text before it is not an integer.
   */
  predicate IsMalformed(text: string) {
    && text != ""
    && ParseInt(text).None?
    && (ParseInt(text[..|text| - 1]).None? || text[|text| - 1] !in Units)
  }

  /** An integer followed by a unit letter is read as exactly that integer and that unit. */
  lemma AmountWithUnit(a: int, u: char)
    requires !IsDigit(u) && !IsSpace(u)
    ensures var t := IntToString(a) + [u];
      && ParseInt(t) == None
      && t[..|t| - 1] == IntToString(a)
      && t[|t| - 1] == u
      && ParseInt(t[..|t| - 1]) == Some(a)
  {
    var t := IntToString(a) + [u];
    NotIntEndingInLetter(t);
    assert t[..|t| - 1] == IntToString(a);
    ParseIntToString(a);
  }

  /**
   `get_duration(text)`: the empty text is read as the default `"5m"`, a bare integer
   as that many minutes, and anything else as `<int><unit>`, clamped into the bounds.
   */
  function GetDuration(text: string): (r: Result<DurationDto, BotError>)
    ensures r.Ok? ==> MinDuration.seconds <= r.value.seconds <= MaxDuration.seconds
    ensures r.Err? ==> r.error == ParseBanDuration
    ensures r.Err? <==> IsMalformed(text)
    decreases if text == "" then 2 else if ParseInt(text).Some? then 1 else 0
  {
    if text == "" then
      AmountWithUnit(DefaultDuration, DefaultUnit);
      GetDuration(IntToString(DefaultDuration) + [DefaultUnit])
    else if ParseInt(text).Some? then
      AmountWithUnit(ParseInt(text).value, DefaultUnit);
      GetDuration(IntToString(ParseInt(text).value) + [DefaultUnit])
    else
      var amount := ParseInt(text[..|text| - 1]);
      var unit := text[|text| - 1];
      if amount.None? || unit !in Units then Err(ParseBanDuration)
      else Ok(Resolve(amount.value, Units[unit]))
  }

  /**
   What `get_duration` gives for every text it accepts: the default for `""`, that many
   minutes for whatever `int()` reads, and otherwise the amount `int()` reads before a
   unit symbol, in that unit.
   */
  lemma Readings(text: string)
    ensures text == "" ==> GetDuration(text) == Ok(Resolve(DefaultDuration, Units[DefaultUnit]))
    ensures ParseInt(text).Some? ==> GetDuration(text) == Ok(Resolve(ParseInt(text).value, Units[DefaultUnit]))
    ensures text != "" && ParseInt(text).None? && ParseInt(text[..|text| - 1]).Some? && text[|text| - 1] in Units ==>
      GetDuration(text) == Ok(Resolve(ParseInt(text[..|text| - 1]).value, Units[text[|text| - 1]]))
  {
    if text == "" {
      AmountWithUnit(DefaultDuration, DefaultUnit);
    } else if ParseInt(text).Some? {
      AmountWithUnit(ParseInt(text).value, DefaultUnit);
    }
  }

  /** `<int><unit>` resolves through the unit table row of that unit. */
  lemma AmountAndUnit(a: int, u: char)
    requires u in Units
    ensures GetDuration(IntToString(a) + [u]) == Ok(Resolve(a, Units[u]))
  {
    AmountWithUnit(a, u);
  }

  /** `"<n><u>"` written with a literal is the same text as `str(n) + u`. */
  lemma DurationTexts()
    ensures GetDuration("5m") == GetDuration(IntToString(5) + ['m'])
    ensures GetDuration("30s") == GetDuration(IntToString(30) + ['s'])
    ensures GetDuration("10d") == GetDuration(IntToString(10) + ['d'])
    ensures GetDuration("5000d") == GetDuration(IntToString(5000) + ['d'])
    ensures GetDuration("0s") == GetDuration(IntToString(0) + ['s'])
  {
    assert IntToString(5) + ['m'] == "5m";
    assert IntToString(30) + ['s'] == "30s";
    assert IntToString(10) + ['d'] == "10d";
    assert IntToString(5000) + ['d'] == "5000d";
    assert IntToString(0) + ['s'] == "0s";
  }

  /** The table rows behind the literal examples. */
  lemma ResolvedExamples()
    ensures Resolve(5, Units['m']) == DurationDto(300, "5 минут")
    ensures Resolve(30, Units['s']) == MinDuration
    ensures Resolve(10, Units['d']) == MaxDuration
  {
    assert IntToString(5) == "5";
    assert IntToString(30) == "30";
    assert IntToString(10) == "10";
  }

  /** The empty text is the default restriction of five minutes. */
  lemma EmptyIsDefault()
    ensures GetDuration("") == GetDuration("5m")
    ensures GetDuration("") == Ok(DurationDto(300, "5 минут"))
  {
    DurationTexts();
    ResolvedExamples();
    AmountAndUnit(5, 'm');
  }

  /** A bare integer is read in minutes: `n` and `n + "m"` give the same duration. */
  lemma BareIntegerIsMinutes(t: string)
    requires ParseInt(t).Some?
    ensures GetDuration(t) == GetDuration(t + "m")
  {
    var a := ParseInt(t).value;
    AmountAndUnit(a, 'm');
    var tm := t + "m";
    NotIntEndingInLetter(tm);
    assert tm[..|tm| - 1] == t;
    assert t != "";
  }

  /** A leading zero is read by `int()` and changes nothing: `"05m"` is five minutes. */
  lemma ZeroFiveMinutes()
    ensures GetDuration("05m") == Ok(Resolve(5, Units['m']))
  {
    ZeroFive();
    ReadsAsFive("05");
    assert "05" + "m" == "05m";
  }

  /** `int("05")` is 5. */
  lemma ZeroFive()
    ensures ParseInt("05") == Some(5)
  {
    var t := "05";
    StripProperties(t);
    assert Strip(t) == t;
    assert t[0] == '0' && t[1] == '5';
    assert IsDigits(t);
    assert t[..1] == "0";
    assert DigitsValue("0") == 0 by {
      assert "0"[..0] == "";
    }
    assert DigitsValue(t) == DigitsValue("0") * 10 + 5;
  }

  /** A text `int()` reads as 5, followed by `m`, resolves like `"5m"`. */
  lemma ReadsAsFive(t: string)
    requires t != "" && ParseInt(t) == Some(5)
    ensures GetDuration(t + "m") == Ok(Resolve(5, Units['m']))
  {
    var tm := t + "m";
    NotIntEndingInLetter(tm);
    assert tm[..|tm| - 1] == t;
  }

  /** A unit letter with no amount before it is a parse error. */
  lemma UnitWithoutAmount(u: char)
    requires u in Units
    ensures GetDuration([u]) == Err(ParseBanDuration)
  {
    UnitTable();
    assert u == 's' || u == 'm' || u == 'h' || u == 'd';
    NotIntEndingInLetter([u]);
    assert [u][..0] == [];
    NothingIsNotInt();
  }

  /** The empty text is not an integer. */
  lemma NothingIsNotInt()
    ensures ParseInt("") == None
  {
    assert Strip("") == "";
  }

  /** A last character that is not a unit symbol is a parse error. */
  lemma UnknownUnit(t: string)
    requires t != "" && t[|t| - 1] !in Units
    requires !IsDigit(t[|t| - 1]) && !IsSpace(t[|t| - 1])
    ensures GetDuration(t) == Err(ParseBanDuration)
  {
    NotIntEndingInLetter(t);
  }

  /**
   A text holding an ASCII information separator anywhere is a parse error: neither the
   whole text nor the text before its last character is an integer, and a separator is
   no unit symbol.
   */
  lemma SeparatorRejected(text: string, i: nat)
    requires i < |text| && IsSeparator(text[i])
    ensures GetDuration(text) == Err(ParseBanDuration)
  {
    SeparatorIsNoInt(text, i);
    var amount := text[..|text| - 1];
    if i < |amount| {
      assert amount[i] == text[i];
      SeparatorIsNoInt(amount, i);
    } else {
      UnitTable();
      assert text[|text| - 1] !in Units;
    }
  }

  /** `"\x1c5"` and `"\x1c5m"` are parse errors, as `int()` rejects the separator. */
  lemma SeparatorExamples()
    ensures GetDuration(['\U{1C}', '5']) == Err(ParseBanDuration)
    ensures GetDuration(['\U{1C}', '5', 'm']) == Err(ParseBanDuration)
  {
    SeparatorRejected(['\U{1C}', '5'], 0);
    SeparatorRejected(['\U{1C}', '5', 'm'], 0);
  }

  /** `"m"` has no amount. */
  lemma MissingAmountExample()
    ensures GetDuration("m") == Err(ParseBanDuration)
  {
    UnitWithoutAmount('m');
    assert "m" == ['m'];
  }

  /** `"5x"` has no known unit. */
  lemma UnknownUnitExample()
    ensures GetDuration("5x") == Err(ParseBanDuration)
  {
    UnknownUnit("5x");
  }

  /** The bounds are the table's own values: 30 seconds and 10 days. */
  lemma BoundsAgreeWithTable()
    ensures Resolve(30, SecondsSettings) == MinDuration
    ensures Resolve(10, DaysSettings) == MaxDuration
    ensures GetDuration("30s") == Ok(MinDuration)
    ensures GetDuration("10d") == Ok(MaxDuration)
  {
    ResolvedExamples();
    MinFromTable();
    MaxFromTable();
  }

  lemma MinFromTable()
    ensures GetDuration("30s") == Ok(MinDuration)
  {
    ResolvedExamples();
    DurationTexts();
    AmountAndUnit(30, 's');
  }

  lemma MaxFromTable()
    ensures GetDuration("10d") == Ok(MaxDuration)
  {
    ResolvedExamples();
    DurationTexts();
    AmountAndUnit(10, 'd');
  }

  /** Anything longer than ten days is the literal maximum, and anything under 30 seconds the literal minimum. */
  lemma OutOfRangeIsLiteral()
    ensures GetDuration("5000d") == Ok(MaxDuration)
    ensures GetDuration("0s") == Ok(MinDuration)
  {
    DurationTexts();
    AmountAndUnit(5000, 'd');
    AmountAndUnit(0, 's');
  }

  /** Every unit word in the table is a single token. */
  lemma UnitWordsAreWords(u: char)
    requires u in Units
    ensures IsWord(Units[u].forms.form1) && IsWord(Units[u].forms.form2) && IsWord(Units[u].forms.form3)
  {
    if u == 's' {
      CyrillicIsWord("секунду"); CyrillicIsWord("секунды"); CyrillicIsWord("секунд");
    } else if u == 'm' {
      CyrillicIsWord("минуту"); CyrillicIsWord("минуты"); CyrillicIsWord("минут");
    } else if u == 'h' {
      CyrillicIsWord("час"); CyrillicIsWord("часа"); CyrillicIsWord("часов");
    } else {
      CyrillicIsWord("день"); CyrillicIsWord("дня"); CyrillicIsWord("дней");
    }
  }

  /** A non-empty string of Cyrillic letters holds no whitespace. */
  lemma CyrillicIsWord(w: string)
    requires w != [] && forall i :: 0 <= i < |w| ==> '\U{400}' <= w[i] <= '\U{4FF}'
    ensures IsWord(w)
  {
  }

  /**
   Within the bounds the text is `"<amount> <unit word>"`, and re-reading its first
   word with the same unit gives the same duration back.
   */
  lemma InverseStable(a: int, u: char)
    requires u in Units
    requires MinDuration.seconds <= a * Units[u].rate <= MaxDuration.seconds
    ensures var r := GetDuration(IntToString(a) + [u]);
      && r.Ok?
      && r.value.seconds == a * Units[u].rate
      && Split(r.value.text) == [IntToString(a), GetPlural(a, Units[u].forms)]
      && GetDuration(Split(r.value.text)[0] + [u]) == r
  {
    AmountAndUnit(a, u);
    UnitWordsAreWords(u);
    TextSplits(a, GetPlural(a, Units[u].forms));
  }

  /** `"<amount> <word>"` splits into the amount and the word. */
  lemma TextSplits(a: int, word: string)
    requires IsWord(word)
    ensures Split(IntToString(a) + " " + word) == [IntToString(a), word]
  {
    var words := [IntToString(a), word];
    IntToStringIsWord(a);
    assert AllWords(words);
    assert Join(words) == IntToString(a) + " " + word by {
      assert Join(words[1..]) == word;
    }
    SplitJoin(words);
  }
}

=== FILE: wrappers.dfy ===
/** The two shapes the Python code uses for "maybe nothing" and "or else an exception". */
module Wrappers {

  /** `None`, or some value: an optional argument or a lookup that can come back empty. */
  datatype Option<T> = None | Some(value: T)

  /** The value computed, or the exception raised in its place. */
  datatype Result<T, E> = Ok(value: T) | Err(error: E)
}
